=== FILE: README.md ===
# Seashell edit-file controller, modelled in Dafny

This project models the logic core of Seashell's `EditFileController`
(`src/frontend/frontend/file.js`). That is the AngularJS controller behind one open
document of a student project. It loads the document, gates whether the editor may be
written to, and debounces edits into saves. Before a run it flushes pending edits,
and on close it records the scroll position, cursor and undo history. It also stops and
starts the student's program, shows the compiler's messages as lint markers, and
passes console input and EOF to the running program.

Each asynchronous step is an explicit event:

- a save timer that fires;
- a save, kill, run, input or EOF request that settles, successfully or not;
- an editor notification.

Each handler is a pure function from the old state and the event to the new state plus
the requests it made, in order (`Protocol.Effect`).

| file | module | what it holds |
|---|---|---|
| `Wrappers.dfy` | `Wrappers` | `Option` (JavaScript's `undefined`/`null`) |
| `Text.dfy` | `Text` | JavaScript `split`/`join` on one character, the last path segment, substring search |
| `Names.dfy` | `Names` | the `ext` field, the mime table, `has_ext`, the rename route, the runner flags |
| `Lint.dfy` | `Lint` | the lint helper: compile messages to lint markers |
| `UiCache.dfy` | `UiCache` | the folder → file → entry caches for scroll/cursor and undo history |
| `Protocol.dfy` | `Protocol` | the requests the controller makes, and the messages it reports |
| `Session.dfy` | `Session` | one document: open, settings, connectivity, change/debounce, saves, `runWhenSaved`, close |
| `Process.dfy` | `Process` | `killProgram`, `runFile`/`testFile`, `handleCompileErr`, `sendInput`, `sendEOF` |
| `Editor.dfy` | `Editor` | the two halves together: the callbacks `runWhenSaved` releases start runs, and edits clear the messages |

Timers are modelled by id:

- `timeout` is the handle the controller keeps.
- `armed` holds the timers that are neither cancelled nor fired.
- `saving` holds the debounced saves still in flight.
- `flushing` holds the saves issued by `runWhenSaved`, each with its waiting callback.

The invariant `Session.Valid` says every armed timer is the one the handle names. So at
most one timer is armed, and `runWhenSaved` runs its callback at once only when no timer
is armed. The invariant says nothing about saves already in flight: two debounced saves
can be in flight together, and a callback that runs at once does not wait for them.

## Model

| member | source | states |
|---|---|---|
| `Text.Basename` | src/frontend/frontend/file.js:155-156 | the name taken from a path contains no `/` and is the suffix after the last `/` (or the whole path) |
| `Text.LastPieceIsSuffix` | src/frontend/frontend/file.js:530 | the last piece of a split is the part of the string after the last separator |
| `Text.BasenameUnique` | src/frontend/frontend/file.js:155-156 | a slash-free suffix that starts the string or follows a `/` is the basename; the basename is determined by that property alone |
| `Text.SplitJoin` | src/frontend/frontend/file.js:346 | splitting the join of separator-free pieces gives back those pieces, so the route's segments are the ones typed |
| `Text.JoinSplit` | src/frontend/frontend/file.js:346 | joining the pieces of a split gives back the string |
| `Text.Split` | src/frontend/frontend/file.js:530 | a split has at least one piece and no piece contains the separator |
| `Text.LastPieceIff` | src/frontend/frontend/file.js:530 | a string is the last piece of a split iff it has no separator and is what follows the last separator (or is the whole string) |
| `Text.Contains` | src/frontend/frontend/file.js:518 | `indexOf(t) != -1` holds iff `t` starts at some position of the text |
| `Text.ContainsInfix` | src/frontend/frontend/file.js:518 | a text containing the decode message anywhere is recognised by the `indexOf` test |
| `Text.ContainedIsInfix` | src/frontend/frontend/file.js:518 | conversely, a text the `indexOf` test accepts is some prefix, the message, and some suffix |
| `Names.Ext` | src/frontend/frontend/file.js:46 | the extension is present exactly when the name has a dot, and contains no dot |
| `Names.ExtAfterFirstDot` | src/frontend/frontend/file.js:46 | the extension is the segment after the FIRST dot, whatever follows it |
| `Names.ExtAgreesWithHasExt` | src/frontend/frontend/file.js:529-531 | with one dot, `ext == e` exactly when `has_ext(e, name)` |
| `Names.ExtDisagreesWithHasExt` | src/frontend/frontend/file.js:529-531 | with two dots, `ext` is the middle segment while `has_ext` accepts only the last one |
| `Names.Mime` | src/frontend/frontend/file.js:87 | the C mode iff the extension is `c` or `h`, the Scheme mode iff it is `rkt`, plain text iff it is none of them |
| `Names.HasExt` | src/frontend/frontend/file.js:529-531 | `has_ext(e, name)` iff `e` has no dot and is what follows the last dot of the name (or the whole name) |
| `Names.MimeOfName` | src/frontend/frontend/file.js:87 | `.c`/`.h` get the C mode, `.rkt` the Scheme mode, any other extension or none gets plain text |
| `Names.RenameRoute` | src/frontend/frontend/file.js:346-351 | the question is the current one or a slash-free name other than `common`; the part has no slash; the file is the escape of a slash-free segment |
| `Names.RenameTwoSegments` | src/frontend/frontend/file.js:346-351 | `q/f` routes to question `q`, part "question", file `f`; `common/f` stays in the current question, part "common" |
| `Names.RenameThreeSegments` | src/frontend/frontend/file.js:346-351 | `q/p/f` routes to part `p` and file `f`, with `common` again keeping the current question; any segments after the third are dropped |
| `Names.RenameOneSegment` | src/frontend/frontend/file.js:346-351 | a name without `/` routes to the file "undefined" |
| `Names.RefreshRunner` | src/frontend/frontend/file.js:533-538 | a runner exists iff the answer is non-empty; this file is the runner iff the answer is its name |
| `Names.SetFileToRunDone` | src/frontend/frontend/file.js:484-494 | an acknowledged request sets both flags; a failed one leaves them unchanged |
| `Names.SetThenRefreshAgree` | src/frontend/frontend/file.js:484-494 | after marking the file as the runner, the next refresh computes the same flags |
| `Names.RefreshAgreesWithSetExactly` | src/frontend/frontend/file.js:533-538 | a refresh gives the flags an acknowledged `setFileToRun` gives iff the answer is this file's (non-empty) name; whenever this file is the runner, a runner exists |
| `Lint.Entry` | src/frontend/frontend/file.js:157-166 | the marker line is one less than the message's, floored at 0; the column is one less with no floor; the severity is error iff the flag is set |
| `Lint.Lints` | src/frontend/frontend/file.js:152-169 | there are never more markers than messages |
| `Lint.LintsExactlyShown` | src/frontend/frontend/file.js:152-169 | a message has a marker iff its basename is the open file or `final-link-result`, and every marker comes from such a message |
| `Lint.LintsAppend` | src/frontend/frontend/file.js:154-167 | markers keep the order of the messages |
| `Lint.CollectLints` | src/frontend/frontend/file.js:152-169 | the message-by-message loop builds exactly the marker list |
| `Lint.ShownByName` | src/frontend/frontend/file.js:155-162 | only the last path segment decides, whatever directory precedes it |
| `Lint.LinkErrorsShownEverywhere` | src/frontend/frontend/file.js:160-162 | link-stage messages are marked on every open file |
| `Lint.OneErrorOnOpenFile` | src/frontend/frontend/file.js:152-169 | an error at line 10, column 5 of `dir/foo.c` becomes an error marker at (9, 4) on `foo.c` |
| `UiCache.Store` | src/frontend/frontend/file.js:74-80 | after storing, the entry is found under the folder and file; every other entry is unchanged; the folder is created if missing |
| `UiCache.OneBased` | src/frontend/frontend/file.js:205-209 | the stored cursor is the editor's zero-based line and column each plus one |
| `UiCache.Restored` | src/frontend/frontend/file.js:196-201 | restoring gives each stored part minus one and keeps absent parts absent |
| `UiCache.CursorRoundTrip` | src/frontend/frontend/file.js:200-208 | storing a cursor one-based and restoring it gives back the editor's cursor |
| `Protocol.Head` | src/frontend/frontend/file.js:452 | `PIDs[0]` is the first process, and is undefined for an empty list |
| `Session.Init` | src/frontend/frontend/file.js:42-52 | a new document is not ready, not loaded, has no timer and starts read-only with line numbers |
| `Session.RefreshSettings` | src/frontend/frontend/file.js:235-236 | read-only iff not ready or binary, line numbers iff not binary; pushed to the editor only when there is one |
| `Session.OnEditorLoaded` | src/frontend/frontend/file.js:149-150 | the editor is created with the current options and nothing else changes |
| `Session.OnOpenSucceeded` | src/frontend/frontend/file.js:511-516 | the document becomes ready with the text; it counts as loaded iff it already was or the text is empty; it becomes writable unless binary; a live editor receives exactly the new options and none is created; the recently-used list is updated first |
| `Session.OnOpenFailed` | src/frontend/frontend/file.js:517-526 | a decode failure makes the document a read-only binary view that stays not ready; any other failure reports and navigates away |
| `Session.OpenOutcomes` | src/frontend/frontend/file.js:510-526 | the three outcomes of opening, seen from a new document |
| `Session.OnConnectionAsWritten` | src/frontend/frontend/file.js:60-71 | the handlers as written: the editor is read-only iff the connection is not up, whatever the document's flags |
| `Session.OnConnection` | src/frontend/frontend/file.js:60-71 | the corrected handlers: read-only iff the connection is down, or the document is not ready, or it is binary |
| `Session.BinaryWritableAsWritten` | src/frontend/frontend/file.js:60-63 | as written, a reconnect makes a binary document writable, breaking the session invariant |
| `Session.ConnectionKeepsGate` | src/frontend/frontend/file.js:60-71 | with the flags composed in, no connectivity change makes a not-ready or binary document writable |
| `Session.Hydrate` | src/frontend/frontend/file.js:191-201 | the history is cleared, then the cached history, scroll and cursor are restored exactly when cached; nothing else is requested: no save, no timer, no cleared messages |
| `Session.OnChangeAsWritten` | src/frontend/frontend/file.js:174-204 | as written: cancel only when ready; for a hydrated text document the requests are exactly that cancel, if any, then one new timer and the cleared messages; otherwise (not yet hydrated, or binary on every change) the requests are exactly the cancel, if any, followed by the hydration requests of `Session.Hydrate`; always loaded afterwards |
| `Session.OnChange` | src/frontend/frontend/file.js:174-204 | the same with the pending timer always cancelled first: a hydrated text document's requests are exactly the cancel of any pending timer, one new timer and the cleared messages |
| `Session.EarlyEditsAsWritten` | src/frontend/frontend/file.js:175-178 | as written, once a `connected` notification has made the not-yet-ready editor writable, three edits before the open settles (the first hydrates, the next two each arm a timer) leave two armed timers |
| `Session.OnCursorMoved` | src/frontend/frontend/file.js:205-213 | the controller keeps the one-based form of the editor's cursor |
| `Session.OnTimerFired` | src/frontend/frontend/file.js:180-181 | a live timer saves the contents current when it fires; a cancelled or fired one does nothing |
| `Session.OnSaveSettledAsWritten` | src/frontend/frontend/file.js:181-187 | as written, a failure is reported and the handle is cleared either way, even if it names a newer timer |
| `Session.OnSaveSettled` | src/frontend/frontend/file.js:181-187 | corrected: the handle is cleared only when it still names the timer that issued the save |
| `Session.StaleSaveAsWritten` | src/frontend/frontend/file.js:185-187 | as written, an edit during a save leaves an armed timer with no handle: the next run skips the save and the next edit arms a second timer |
| `Session.StaleSaveCorrected` | src/frontend/frontend/file.js:185-187 | corrected, the same events keep the handle, and the next run saves the last edit first |
| `Session.OnRunWhenSaved` | src/frontend/frontend/file.js:89-102 | with no handle the callback runs at once and nothing is saved; otherwise the timer is cancelled, the current contents are saved once, and the callback waits |
| `Session.OnFlushSettled` | src/frontend/frontend/file.js:93-98 | the waiting callback runs iff its save succeeded; a failure is reported instead |
| `Session.RunWhenSavedWaitsForArmedTimer` | src/frontend/frontend/file.js:89-102 | in a valid session the callback runs at once only when no timer is armed |
| `Session.OnDestroy` | src/frontend/frontend/file.js:72-84 | closing records scroll, cursor and history for exactly this folder and file; a pending timer is flushed iff the document is ready; the settings watcher is removed last |
| `Session.ReopenRestores` | src/frontend/frontend/file.js:72-80 | close and reopen: the first change restores the history, the scroll offsets and the editor's last cursor |
| `Session.FirstOpenRestoresNothing` | src/frontend/frontend/file.js:192-197 | a document with nothing cached only clears its history on hydration |
| `Session.InitValid` | src/frontend/frontend/file.js:42-52 | a new document satisfies the session invariant |
| `Session.AtMostOneArmed` | src/frontend/frontend/file.js:174-188 | a valid session has at most one armed timer, and none without a handle |
| `Session.StepAdvances` | src/frontend/frontend/file.js:174-190 | for `Session.Step`: only an edit arms a timer, and only `runWhenSaved` adds a waiting flush, each with a freshly drawn id; every save writes the contents current at the event; no event changes the folder or file, lowers the id counter, or makes the document un-ready, un-loaded, non-binary or editor-less |
| `Session.StepAsWrittenAdvances` | src/frontend/frontend/file.js:174-190 | for `Session.StepAsWritten`: it agrees with `Session.Step` except on connectivity, edits and settled saves, and keeps the same guarantees |
| `Session.Replay` | src/frontend/frontend/file.js:174-204 | no sequence of events changes the folder or file, lowers the id counter, or undoes readiness, hydration, the binary flag or the editor |
| `Session.ReplayHandsOutFreshIds` | src/frontend/frontend/file.js:89-102 | every timer a sequence of events leaves armed, and every flush it leaves waiting, that was not there before has an id drawn during the sequence |
| `Session.StepKeepsValid` | src/frontend/frontend/file.js:174-204 | every event preserves the session invariant |
| `Session.ReplayKeepsValid` | src/frontend/frontend/file.js:174-204 | every sequence of events preserves it |
| `Session.EditBurstArmsOneTimer` | src/frontend/frontend/file.js:179-188 | a burst of edits leaves exactly one armed timer, and when it fires it saves the last edit |
| `Process.HandleCompileErr` | src/frontend/frontend/file.js:367-381 | no messages change nothing; otherwise a header, the messages replace the console's, C files are re-linted, and every message is written in order |
| `Process.AfterKilled` | src/frontend/frontend/file.js:384-386 | after the kills the console is cleared and the run or test is requested |
| `Process.KillProgram` | src/frontend/frontend/file.js:426-439 | with no process list nothing is killed; otherwise one kill per process, in order; the list is gone and nothing runs at once, whatever the kills answer |
| `Process.OnKillsSettled` | src/frontend/frontend/file.js:430-435 | a failed kill batch is reported, and the run is dispatched either way |
| `Process.OnRunSettled` | src/frontend/frontend/file.js:387-400 | a started run installs `[pid]` (a test batch its `pids`) and runs; a compile failure records its messages and starts nothing; another error is reported |
| `Process.RunFlowKillsThenRuns` | src/frontend/frontend/file.js:383-402 | every running process is killed before the run is requested, and a kill failure is reported between them |
| `Process.RunFlowCompileFailed` | src/frontend/frontend/file.js:393-398 | a run that fails to compile leaves no process list and nothing running, with its messages kept |
| `Process.RunFlowStarted` | src/frontend/frontend/file.js:405-412 | a started run or test batch owns the console and accepts input |
| `Process.OnKey` | src/frontend/frontend/file.js:449-458 | Enter while running sends the line with a newline to the first process, echoes it and clears the box; anything else does nothing |
| `Process.OnEof` | src/frontend/frontend/file.js:464-482 | only while running: typed input goes first without a newline; with none the EOF goes at once; running does not change yet |
| `Process.SendEofNow` | src/frontend/frontend/file.js:474-478 | the typed input is cleared and the EOF goes to the first process |
| `Process.OnInputSettled` | src/frontend/frontend/file.js:474-480 | the EOF follows the input only if the input was delivered |
| `Process.OnEofSettled` | src/frontend/frontend/file.js:476-478 | only a successful EOF answer stops the console from running |
| `Process.EofAfterTypedInput` | src/frontend/frontend/file.js:464-482 | the full EOF sequence: input, then EOF, to the first process; running ends iff the EOF succeeds |
| `Process.EofInputLost` | src/frontend/frontend/file.js:474-480 | undelivered input sends no EOF and keeps the typed text |
| `Process.EnterAndEofDiffer` | src/frontend/frontend/file.js:452-468 | Enter sends the text with a newline, EOF without one |
| `Process.Step` | src/frontend/frontend/file.js:383-482 | kills go out only on a kill or run request; a run goes out only on such a request or a settled kill batch; only a started run sets the console running; a request leaves `pending` only when its own answer arrives, and a new one takes a fresh id |
| `Process.StopThenDispatch` | src/frontend/frontend/file.js:426-435 | the first half of a run: one kill per running process, in order, then the failure report if a kill failed, then the console clear and the run request |
| `Process.RunFlow` | src/frontend/frontend/file.js:383-402 | a whole run begins with exactly the requests of its first half |
| `Process.StepKeepsConsistent` | src/frontend/frontend/file.js:426-439 | the console runs only with a process list, in every reachable state |
| `Process.Init` | src/frontend/frontend/file.js:448 | the console starts idle with no typed input |
| `Editor.Route` | src/frontend/frontend/file.js:383-424 | a released run callback becomes a run request, a test callback a test request, and a message clear a clear |
| `Editor.RunAll` | src/frontend/frontend/file.js:383-424 | a sequence of console events never changes the overlay flag, and every request it leaves pending that was not pending before has an id drawn during the sequence |
| `Editor.Step` | src/frontend/frontend/file.js:383-424 | the caches and the overlay flag stay; a console event leaves the document alone; a document event reaches the console only when it releases a run or test callback or clears the messages |
| `Editor.Markers` | src/frontend/frontend/file.js:152-169 | without the overlay there are no markers; with it, every message shown on the open file has its marker, and every marker comes from such a message |
| `Editor.Open` | src/frontend/frontend/file.js:151-172 | the lint overlay is installed iff the extension is `c` or `h`; the new controller shares the console, starts with no typed input and with none of the previous controller's requests, and numbers its own after them |
| `Editor.OpenIgnoresEarlierAnswers` | src/frontend/frontend/file.js:151-172 | an answer to a request made before the document was opened leaves the new controller's typed input, lint flag and console unchanged |
| `Editor.OpenForgetsTypedInput` | src/frontend/frontend/file.js:448 | on a running console, EOF in a newly opened document goes straight to the first process with nothing sent ahead of it |
| `Editor.OverlayByExtension` | src/frontend/frontend/file.js:151 | `x.c` and `x.h` get the overlay; `x.rkt` and a name without a dot do not |
| `Editor.StepKeepsValid` | src/frontend/frontend/file.js:89-102 | with the two halves wired together, every event keeps both invariants |
| `Editor.EditClearsMarkers` | src/frontend/frontend/file.js:189 | an edit to a hydrated text document removes every lint marker |
| `Editor.RunWaitsForPendingSave` | src/frontend/frontend/file.js:383 | a run requested while an edit waits only saves, and the console is untouched |
| `Editor.SavedRunStarts` | src/frontend/frontend/file.js:93-95 | once that save succeeds the kills and the run follow |
| `Editor.FailedSaveRunsNothing` | src/frontend/frontend/file.js:96-98 | a failed save is reported and runs nothing |
| `Editor.TestsStartAtOnce` | src/frontend/frontend/file.js:405-406 | with nothing pending the test callback runs at once: one kill per running process, in order, or with none the test request itself; the process list is cleared |

## Left out

- Window sizing (`onResize`, lines 106-138): DOM measurement and floating-point heights.
- Hotkeys, the keymap and vim tables, the editor theme and the console editor's options (lines 141-148, 216-227, 237-343): editor-widget UI. The model keeps only the two options derived from the document's flags.
- `betterTab`, `negTab` and `indentAll`: editor-widget operations with no controller state.
- The rename and delete dialogs and `deleteFile` (lines 344-365): the route a rename navigates to is modelled (`Names.RenameRoute`), but the dialog, the refresh and the navigation are not.
- Navigation and scope broadcasts are requests (`Navigate`, `BroadcastRunning`) with no further behaviour.
- Real time: the 2000 ms delay and promise scheduling are not modelled. A timer firing and a request settling are events that can arrive in any order.
- A continuation chained on an already-resolved promise (`$q.when()` in `killProgram`, the resolved deferred in `sendEOF`) is taken in the same step as its cause.
- The console service is not part of this model. Its `setRunning` is taken to install the process list and set `running`. Its `clear` is taken to leave the compile messages alone. Its write formatting (`sprintf`) is reduced to a request per line.
- The websocket, the settings store and the project store are not part of this model. Their answers are the events' parameters.
- CodeMirror internals: the undo history is an opaque value, scroll offsets are integers, and `escape` is a parameter of `Names.RenameRoute`.
- `Names.Mime`: a lookup of an extension that names an inherited object property (such as `constructor`) is not modelled. Every extension other than `c`, `h` and `rkt` gives plain text.
- `Lint.Lints`: the helper is registered once under the global name `clike`. The model does not capture that the most recently loaded document's helper serves every C editor.
- `Names.SetFileToRunDone`: the failure report ("Could not set runner file!") and the `setFileToRun` scope event are not modelled; the flags are unchanged.
- `Process.OnKillsSettled`: the outer report "Could not kill program!" (lines 400-402 and 421-423) is reached only if the callback after the kills (lines 384-399, and 406-420 for tests: `console.clear()`, then `project.run`) throws, which the model does not represent.
- `Editor.Open`: the previous controller's requests still in flight, and the `runWhenSaved` callbacks its session still waits on (lines 93-95), are dropped from the model. In the controller they settle later on the old controller's own state and may still act on the shared console (a dispatched run, an EOF sent to the first process); the model keeps only that they cannot reach the new controller's typed input or lint flag.
- `Session.Hydrate`: the caches are plain objects (lines 192-197), so a file named after an inherited property such as `toString` or `constructor`, in a folder that already has cache entries, finds that method; `setHistory` then throws before `self.loaded = true` (line 203), and the document never hydrates or arms saves. `UiCache.Lookup` finds nothing for such a name instead.
- `Session.OnDestroy`: when there is no editor, the first handler throws at its first line. The model then leaves the caches and the transport handlers untouched and still runs the second handler.

## Findings

| source | as written | input that shows it | evidently intended | confidence | as-written member | corrected member |
|---|---|---|---|---|---|---|
| src/frontend/frontend/file.js:185-187 | a settled save sets `self.timeout = null` unconditionally | edit, the timer fires, edit again while that save is in flight, the save succeeds | clear the handle only if it still names the timer that issued the save | medium, not executed | `Session.StaleSaveAsWritten` | `Session.StaleSaveCorrected` |
| src/frontend/frontend/file.js:175 | the pending timer is cancelled only when `self.ready` | a `connected` notification makes the not-yet-ready editor writable (lines 60-63), then three edits reach it before the open request settles: the first hydrates, the next two each arm a timer | cancel whenever a timer is pending, so at most one is armed | low, not executed | `Session.EarlyEditsAsWritten` | `Session.OnChange` |
| src/frontend/frontend/file.js:60-63 | `connected` sets `readOnly` false whatever the document's flags | open a binary file, lose the connection, reconnect | writable only when ready and not binary, as `refreshSettings` decides | medium, not executed | `Session.BinaryWritableAsWritten` | `Session.ConnectionKeepsGate` |

In the first row, the stale handle means:

- `runWhenSaved` runs its callback without saving the newest edit;
- `$destroy` does not flush that edit;
- the next edit arms a second timer beside the orphaned one.

`Session.Step` uses the corrected handlers and `Session.StepAsWritten` the handlers as
written; the invariant `Session.Valid` holds for the first and fails for the second.

`Session.Step` uses the corrected `connected` handler (`Session.OnConnection`), so the
model keeps a not-ready or binary document read-only; the handler as written is the third
row above and is used only by `Session.StepAsWritten`.

Three points of the code that the model follows as written:

- `sendEOF` clears `running` only when the EOF request succeeds (lines 477-479), not when
  it is sent.
- The kill batch settles on its first failure, because `$q.all` rejects then (line 430);
  the other kills are not waited for.
- The run or test is still requested after a failed kill: the `.catch` on line 433
  reports the failure and resolves, so the `.then` on line 384 runs.

=== FILE: Editor.dfy ===
/** The controller as a whole: one open document and the console it shares with the
    project. The document's requests that concern the console are passed on to it: the
    callbacks `runWhenSaved` releases start a run or a test batch, and an edit empties the
    compile messages the lint helper reads. */
module Editor {
  import opened Wrappers
  import opened Lint
  import opened UiCache
  import opened Protocol
  import Names
  import Session
  import Process

  datatype Editor = Editor(doc: Session.Session, proc: Process.Proc, caches: Caches)

  datatype Event = DocEvent(doc: Session.Event) | ProcEvent(proc: Process.Event)

  datatype Outcome = Outcome(state: Editor, effects: seq<Effect>)

  /** The console events that a document's requests amount to, in order. */
  function Route(effects: seq<Effect>): (events: seq<Process.Event>)
    ensures |events| <= |effects|
    ensures forall ev :: ev in events ==> ev.RunRequested? || ev.ErrorsCleared?
    ensures Invoke(RunProgram) in effects <==> Process.RunRequested(false) in events
    ensures Invoke(RunTests) in effects <==> Process.RunRequested(true) in events
    ensures ClearDiagnostics in effects <==> Process.ErrorsCleared in events
    decreases |effects|
  {
    if |effects| == 0 then []
    else
      var head := match effects[0]
        case Invoke(RunProgram) => [Process.RunRequested(false)]
        case Invoke(RunTests) => [Process.RunRequested(true)]
        case ClearDiagnostics => [Process.ErrorsCleared]
        case _ => [];
      assert effects == [effects[0]] + effects[1..];
      head + Route(effects[1..])
  }

  /** The console after a sequence of its events, with everything they requested. No
      sequence changes whether the overlay re-lints, and every request it leaves pending
      that was not pending before has an id drawn during the sequence. */
  function RunAll(p: Process.Proc, events: seq<Process.Event>): (o: Process.Outcome)
    ensures |events| == 0 ==> o == Process.Outcome(p, [])
    ensures o.state.lint == p.lint && o.state.nextReq >= p.nextReq
    ensures forall id :: id in o.state.pending && id !in p.pending ==> p.nextReq <= id < o.state.nextReq
    decreases |events|
  {
    if |events| == 0 then Process.Outcome(p, [])
    else
      var h := Process.Step(p, events[0]);
      var t := RunAll(h.state, events[1..]);
      Process.Outcome(t.state, h.effects + t.effects)
  }

  /** A document request that neither runs, tests nor edits gives the console nothing. */
  lemma RouteQuiet(effects: seq<Effect>)
    requires Invoke(RunProgram) !in effects && Invoke(RunTests) !in effects && ClearDiagnostics !in effects
    ensures Route(effects) == []
  {
  }

  /** One event. The caches stay as they are until the document closes, a console event
      leaves the document alone, and a document event reaches the console only when it
      runs, tests or edits. */
  function Step(ed: Editor, e: Event): (o: Outcome)
    ensures o.state.caches == ed.caches && o.state.proc.lint == ed.proc.lint
    ensures Session.Advances(ed.doc, o.state.doc)
    ensures e.ProcEvent? ==> o.state.doc == ed.doc
    ensures e.DocEvent? && o.state.proc != ed.proc ==>
      Invoke(RunProgram) in o.effects || Invoke(RunTests) in o.effects || ClearDiagnostics in o.effects
  {
    match e
    case DocEvent(de) =>
      var o := Session.Step(ed.doc, ed.caches, de);
      var r := RunAll(ed.proc, Route(o.effects));
      Session.StepAdvances(ed.doc, ed.caches, de);
      if Invoke(RunProgram) !in o.effects && Invoke(RunTests) !in o.effects && ClearDiagnostics !in o.effects then
        RouteQuiet(o.effects);
        Outcome(ed.(doc := o.state, proc := r.state), o.effects + r.effects)
      else
        Outcome(ed.(doc := o.state, proc := r.state), o.effects + r.effects)
    case ProcEvent(pe) =>
      var r := Process.Step(ed.proc, pe);
      Outcome(ed.(proc := r.state), r.effects)
  }

  /** A freshly opened document: the lint overlay (and the re-lint after a compile) is
      installed for C sources and headers only. The shared console carries over; the
      requests the previous controller still has in flight stay with that controller, so
      the new one starts with none and keeps numbering after them. */
  function Open(folder: string, file: string, proc: Process.Proc, caches: Caches): (ed: Editor)
    ensures ed.doc == Session.Init(folder, file) && ed.caches == caches
    ensures ed.proc.console == proc.console && ed.proc.nextReq == proc.nextReq
    ensures ed.proc.pending == map[] && ed.proc.userInput == ""
    ensures ed.proc.lint <==> Names.Ext(file) in {Some("c"), Some("h")}
  {
    Editor(Session.Init(folder, file),
           proc.(lint := Names.LintEnabled(Names.Ext(file)), userInput := "", pending := map[]),
           caches)
  }

  /** An answer to a request the previous controller made changes nothing in the newly
      opened one: not its typed input, not its lint flag, not the console it shows. */
  lemma OpenIgnoresEarlierAnswers(folder: string, file: string, proc: Process.Proc, caches: Caches,
                                  e: Process.Event)
    requires e.KillsSettled? || e.RunSettled? || e.InputSettled? || e.EofSettled?
    ensures var p := Open(folder, file, proc, caches).proc;
      Process.Step(p, e) == Process.Outcome(p, [])
  {
  }

  /** Typed input does not survive into a newly opened document: EOF on a running console
      goes straight to the first process, with nothing sent ahead of it. */
  lemma OpenForgetsTypedInput(folder: string, file: string, proc: Process.Proc, caches: Caches)
    requires proc.console.running && proc.console.pids.Some?
    ensures Process.OnEof(Open(folder, file, proc, caches).proc).effects
      == [SendEof(Head(proc.console.pids.value))]
  {
  }

  /** The markers the lint overlay shows on the open document; none without the overlay. */
  function Markers(ed: Editor): (m: seq<LintEntry>)
    ensures !ed.proc.lint ==> m == []
    ensures ed.proc.lint ==>
      forall d :: d in ed.proc.console.errors && Shown(d, ed.doc.file) ==> Entry(d) in m
    ensures forall x :: x in m ==>
      exists d :: d in ed.proc.console.errors && Shown(d, ed.doc.file) && x == Entry(d)
  {
    LintsExactlyShown(ed.proc.console.errors, ed.doc.file);
    if ed.proc.lint then Lints(ed.proc.console.errors, ed.doc.file) else []
  }

  /** `a.c` and `a.h` get the overlay and show the compile messages about them; `a.rkt`
      and a name without a dot get none. */
  lemma OverlayByExtension(folder: string, stem: string, ext: string, proc: Process.Proc, caches: Caches)
    requires '.' !in stem && '.' !in ext
    ensures var ed := Open(folder, stem + "." + ext, proc, caches);
      ed.proc.lint <==> ext == "c" || ext == "h"
    ensures !Open(folder, stem, proc, caches).proc.lint
  {
    Names.ExtAfterFirstDot(stem, ext, "");
    assert stem + "." + ext + "" == stem + "." + ext;
  }

  ghost predicate Valid(ed: Editor)
  {
    Session.Valid(ed.doc) && Process.Consistent(ed.proc)
  }

  lemma {:induction false} RunAllKeepsConsistent(p: Process.Proc, events: seq<Process.Event>)
    requires Process.Consistent(p)
    ensures Process.Consistent(RunAll(p, events).state)
    decreases |events|
  {
    if |events| > 0 {
      Process.StepKeepsConsistent(p, events[0]);
      RunAllKeepsConsistent(Process.Step(p, events[0]).state, events[1..]);
    }
  }

  /** Every event keeps both halves valid. */
  lemma StepKeepsValid(ed: Editor, e: Event)
    requires Valid(ed)
    ensures Valid(Step(ed, e).state)
  {
    match e
    case DocEvent(de) =>
      Session.StepKeepsValid(ed.doc, ed.caches, de);
      RunAllKeepsConsistent(ed.proc, Route(Session.Step(ed.doc, ed.caches, de).effects));
    case ProcEvent(pe) =>
      Process.StepKeepsConsistent(ed.proc, pe);
  }

  /** An edit to a hydrated text document removes every lint marker, whatever the last
      compilation reported. */
  lemma EditClearsMarkers(ed: Editor, text: string)
    requires ed.doc.editor.Some? && ed.doc.loaded && !ed.doc.isBinaryFile
    ensures Markers(Step(ed, DocEvent(Session.Changed(text))).state) == []
  {
    var o := Session.OnChange(ed.doc, ed.caches, text);
    assert Session.Step(ed.doc, ed.caches, Session.Changed(text)) == o;
    assert Route(o.effects) == [Process.ErrorsCleared] by {
      RouteOfEdit(ed.doc.timeout, ed.doc.nextId, o.effects);
    }
    var r := RunAll(ed.proc, [Process.ErrorsCleared]);
    assert r.state.console.errors == [] by {
      assert [Process.ErrorsCleared][1..] == [];
    }
  }

  /** The requests of an edit to a hydrated text document amount to clearing the messages. */
  lemma RouteOfEdit(timeout: Option<nat>, t: nat, effects: seq<Effect>)
    requires effects == (if timeout.Some? then [CancelTimer(timeout.value)] else []) + [ArmTimer(t), ClearDiagnostics]
    ensures Route(effects) == [Process.ErrorsCleared]
  {
    assert Route([ClearDiagnostics]) == [Process.ErrorsCleared] by {
      assert [ClearDiagnostics][1..] == [];
    }
    assert Route([ArmTimer(t), ClearDiagnostics]) == [Process.ErrorsCleared] by {
      assert [ArmTimer(t), ClearDiagnostics][1..] == [ClearDiagnostics];
    }
    if timeout.Some? {
      assert effects[1..] == [ArmTimer(t), ClearDiagnostics];
    }
  }

  /** Running while an edit waits for its timer only saves: the console is untouched until
      that save settles. */
  lemma RunWaitsForPendingSave(ed: Editor, cb: Callback)
    requires ed.doc.timeout.Some?
    ensures var o := Step(ed, DocEvent(Session.RunWhenSaved(cb)));
      && o.state.proc == ed.proc
      && o.effects == [CancelTimer(ed.doc.timeout.value), SaveFile(ed.doc.contents)]
  {
    var o := Session.OnRunWhenSaved(ed.doc, cb);
    assert Route(o.effects) == [] by {
      assert o.effects[1..] == [SaveFile(ed.doc.contents)];
    }
  }

  /** Once that save succeeds the program is run: every running process is killed first,
      or with none the run is requested at once. */
  lemma SavedRunStarts(ed: Editor, id: nat)
    requires id in ed.doc.flushing && ed.doc.flushing[id] == RunProgram
    ensures var o := Step(ed, DocEvent(Session.FlushSettled(id, true)));
      var k := Process.KillProgram(ed.proc, Some(false));
      && o.state.proc == k.state
      && o.effects == [Invoke(RunProgram)] + k.effects
      && (ed.proc.console.pids.None? ==> RunQuestion(false) in o.effects)
  {
    var d := Session.OnFlushSettled(ed.doc, id, true);
    assert Session.Step(ed.doc, ed.caches, Session.FlushSettled(id, true)) == d;
    assert d.effects == [Invoke(RunProgram)];
    var k := Process.KillProgram(ed.proc, Some(false));
    assert Route([Invoke(RunProgram)]) == [Process.RunRequested(false)] by {
      assert [Invoke(RunProgram)][1..] == [];
    }
    assert RunAll(ed.proc, [Process.RunRequested(false)]) == Process.Outcome(k.state, k.effects + []) by {
      assert [Process.RunRequested(false)][1..] == [];
    }
  }

  /** A failed save runs nothing: it is reported and the console is untouched. */
  lemma FailedSaveRunsNothing(ed: Editor, id: nat)
    requires id in ed.doc.flushing
    ensures var o := Step(ed, DocEvent(Session.FlushSettled(id, false)));
      o.state.proc == ed.proc && o.effects == [Report(CouldNotSave)]
  {
    var d := Session.OnFlushSettled(ed.doc, id, false);
    assert Session.Step(ed.doc, ed.caches, Session.FlushSettled(id, false)) == d;
    assert Route([Report(CouldNotSave)]) == [] by {
      assert [Report(CouldNotSave)][1..] == [];
    }
  }

  /** With nothing pending the tests are started right away: every running process is
      killed first, or with none the test request goes out at once. */
  lemma TestsStartAtOnce(ed: Editor)
    requires ed.doc.timeout.None?
    ensures var o := Step(ed, DocEvent(Session.RunWhenSaved(RunTests)));
      var k := Process.KillProgram(ed.proc, Some(true));
      && o.state.doc == ed.doc
      && o.state.proc == k.state
      && o.state.proc.console.pids.None?
      && o.effects == [Invoke(RunTests)] + k.effects
      && (ed.proc.console.pids.None? ==> RunQuestion(true) in o.effects)
      && (ed.proc.console.pids.Some? ==>
            var ps := ed.proc.console.pids.value;
            |o.effects| == 1 + |ps| && forall i :: 0 <= i < |ps| ==> o.effects[1 + i] == Kill(ps[i]))
  {
    var d := Session.OnRunWhenSaved(ed.doc, RunTests);
    assert Session.Step(ed.doc, ed.caches, Session.RunWhenSaved(RunTests)) == d;
    assert d.effects == [Invoke(RunTests)];
    var k := Process.KillProgram(ed.proc, Some(true));
    assert Route([Invoke(RunTests)]) == [Process.RunRequested(true)] by {
      assert [Invoke(RunTests)][1..] == [];
    }
    assert RunAll(ed.proc, [Process.RunRequested(true)]) == Process.Outcome(k.state, k.effects + []) by {
      assert [Process.RunRequested(true)][1..] == [];
    }
  }
}

=== FILE: Lint.dfy ===
/** The lint helper the controller registers for C files: it turns the compile messages
    held by the console into gutter markers for the open file. */
module Lint {
  import opened Text

  /** One compile message as the backend reports it: `[isError, path, line, column, text]`,
      with one-based line and column. */
  datatype Diagnostic = Diagnostic(isError: bool, path: string, line: int, column: int, message: string)

  datatype Severity = Error | Warning

  /** A marker from zero-based (`line`, `column`) to the end of `line`. */
  datatype LintEntry = LintEntry(line: int, column: int, message: string, severity: Severity)

  /** Link-stage messages carry this name instead of a source file. */
  const FinalLinkResult: string := "final-link-result"

  /** A message is shown on `file` when its path's last segment is that file's name or
      the link-stage sentinel. */
  predicate Shown(d: Diagnostic, file: string)
  {
    var name := Basename(d.path);
    name == file || name == FinalLinkResult
  }

  /** The marker for one message: the line moves to zero-based and is floored at 0, the
      column moves to zero-based with no floor, and the flag picks the severity. */
  function Entry(d: Diagnostic): (e: LintEntry)
    ensures e.line >= 0 && e.message == d.message
    ensures d.line >= 1 ==> e.line + 1 == d.line
    ensures d.line < 1 ==> e.line == 0
    ensures e.column + 1 == d.column
    ensures e.severity == Error <==> d.isError
  {
    LintEntry(if d.line - 1 > 0 then d.line - 1 else 0, d.column - 1, d.message,
              if d.isError then Error else Warning)
  }

  /** The markers for `file`, in the order of the messages. */
  function Lints(diags: seq<Diagnostic>, file: string): (found: seq<LintEntry>)
    ensures |found| <= |diags|
    decreases |diags|
  {
    if |diags| == 0 then []
    else
      var tail := Lints(diags[1..], file);
      if Shown(diags[0], file) then [Entry(diags[0])] + tail else tail
  }

  /** Every shown message has its marker, and every marker comes from a shown message. */
  lemma {:induction false} LintsExactlyShown(diags: seq<Diagnostic>, file: string)
    ensures forall d :: d in diags && Shown(d, file) ==> Entry(d) in Lints(diags, file)
    ensures forall e :: e in Lints(diags, file) ==>
      exists d :: d in diags && Shown(d, file) && e == Entry(d)
    decreases |diags|
  {
    if |diags| > 0 {
      LintsExactlyShown(diags[1..], file);
      assert diags == [diags[0]] + diags[1..];
      forall e | e in Lints(diags, file)
        ensures exists d :: d in diags && Shown(d, file) && e == Entry(d)
      {
        if e !in Lints(diags[1..], file) {
          assert Shown(diags[0], file) && e == Entry(diags[0]);
        }
      }
    }
  }

  /** Markers of consecutive message lists come out consecutively: the output keeps the
      order of the input. */
  lemma {:induction false} LintsAppend(a: seq<Diagnostic>, b: seq<Diagnostic>, file: string)
    ensures Lints(a + b, file) == Lints(a, file) + Lints(b, file)
    decreases |a|
  {
    if |a| > 0 {
      assert (a + b)[1..] == a[1..] + b;
      LintsAppend(a[1..], b, file);
    } else {
      assert a + b == b;
    }
  }

  /** The markers for the message list read one message at a time, the way the helper
      pushes them with `forEach`. */
  method CollectLints(diags: seq<Diagnostic>, file: string) returns (found: seq<LintEntry>)
    ensures found == Lints(diags, file)
  {
    found := [];
    var i := 0;
    while i < |diags|
      invariant 0 <= i <= |diags|
      invariant found == Lints(diags[..i], file)
    {
      var d := diags[i];
      assert diags[..i + 1] == diags[..i] + [d];
      LintsAppend(diags[..i], [d], file);
      if Shown(d, file) {
        found := found + [Entry(d)];
      }
      i := i + 1;
    }
    assert diags[..i] == diags;
  }

  /** A message whose path ends in the open file's name or in the link sentinel is shown
      wherever its directory part points, and any other name is not. */
  lemma ShownByName(dir: string, name: string, file: string, d: Diagnostic)
    requires '/' !in name
    requires d.path == dir + "/" + name || d.path == name
    ensures Shown(d, file) <==> name == file || name == FinalLinkResult
  {
    BasenameUnique(d.path, name);
  }

  /** A run that failed to link shows its link-stage message on every open file. */
  lemma LinkErrorsShownEverywhere(diags: seq<Diagnostic>, d: Diagnostic, file: string)
    requires d in diags && d.path == FinalLinkResult
    ensures Entry(d) in Lints(diags, file)
  {
    BasenameUnique(d.path, FinalLinkResult);
    LintsExactlyShown(diags, file);
  }

  /** A message reported at line 10, column 5 of `foo.c` is marked on zero-based line 9,
      column 4 of `foo.c`, as an error. */
  lemma OneErrorOnOpenFile(dir: string)
    ensures Lints([Diagnostic(true, dir + "/foo.c", 10, 5, "syntax error")], "foo.c")
      == [LintEntry(9, 4, "syntax error", Error)]
  {
    BasenameUnique(dir + "/foo.c", "foo.c");
  }
}

=== FILE: Names.dfy ===
/** The pure name helpers of the file controller: the extension it derives from the file
    name, the editor mode chosen from it, the `has_ext` test, the route a rename navigates
    to, and the runner-file flags. */
module Names {
  import opened Wrappers
  import opened Text

  /** The controller's `ext`: the SECOND `.`-separated segment of the file name
      (`file.split(".")[1]`), absent (`undefined`) when the name has no dot. */
  function Ext(file: string): (ext: Option<string>)
    ensures ext.Some? <==> '.' in file
    ensures ext.Some? ==> '.' !in ext.value
  {
    SplitIsSinglePiece(file, '.');
    var parts := Split(file, '.');
    if |parts| > 1 then Some(parts[1]) else None
  }

  /** The editor mode looked up from the extension, with plain text as the fallback. */
  function Mime(ext: Option<string>): (mode: string)
    ensures mode == "text/x-c" <==> ext == Some("c") || ext == Some("h")
    ensures mode == "text/x-scheme" <==> ext == Some("rkt")
    ensures mode == "text/plain" <==> !(ext in {Some("c"), Some("h"), Some("rkt")})
  {
    match ext
    case Some(e) =>
      if e == "c" || e == "h" then "text/x-c"
      else if e == "rkt" then "text/x-scheme"
      else "text/plain"
    case None => "text/plain"
  }

  /** True iff the LAST `.`-separated segment of `fname` is `ext`: `ext` has no dot and
      ends `fname`, right after a dot or as the whole name. */
  function HasExt(ext: string, fname: string): (b: bool)
    ensures b <==> '.' !in ext && EndsAtSep(fname, ext, '.')
  {
    LastPieceIff(fname, ext, '.');
    Last(Split(fname, '.')) == ext
  }

  /** The compile-message lint overlay is installed, and refreshed after a compile, only
      for C sources and headers. */
  predicate LintEnabled(ext: Option<string>)
  {
    ext == Some("c") || ext == Some("h")
  }

  /** `Ext` picks the segment after the first dot, whatever follows it. */
  lemma ExtAfterFirstDot(stem: string, ext: string, tail: string)
    requires '.' !in stem && '.' !in ext
    requires tail == [] || tail[0] == '.'
    ensures Ext(stem + "." + ext + tail) == Some(ext)
  {
    SplitAfterPiece(stem, ext + tail, '.');
    assert stem + "." + ext + tail == stem + ['.'] + (ext + tail);
    if tail == [] {
      SplitWithoutSep(ext, '.');
      assert ext + tail == ext;
    } else {
      SplitAfterPiece(ext, tail[1..], '.');
      assert ext + tail == ext + ['.'] + tail[1..];
    }
  }

  /** With exactly one dot, `Ext` and `HasExt` agree. */
  lemma ExtAgreesWithHasExt(stem: string, ext: string, e: string)
    requires '.' !in stem && '.' !in ext
    ensures Ext(stem + "." + ext) == Some(e) <==> HasExt(e, stem + "." + ext)
  {
    ExtAfterFirstDot(stem, ext, "");
    assert stem + "." + ext + "" == stem + "." + ext;
    SplitJoin([stem, ext], '.');
    assert Join([stem, ext], '.') == stem + "." + ext;
  }

  /** With two dots they disagree: `Ext` takes the middle segment and `HasExt` the last, so
      `a.c.orig` is a C file to the editor mode and the lint overlay but not to `has_ext`. */
  lemma ExtDisagreesWithHasExt(stem: string, ext: string, other: string)
    requires '.' !in stem && '.' !in ext && '.' !in other
    requires ext != other
    ensures var name := stem + "." + ext + "." + other;
      Ext(name) == Some(ext) && !HasExt(ext, name) && HasExt(other, name)
  {
    var name := stem + "." + ext + "." + other;
    ExtAfterFirstDot(stem, ext, "." + other);
    assert stem + "." + ext + ("." + other) == name;
    SplitJoin([stem, ext, other], '.');
    assert [stem, ext, other][1..] == [ext, other];
    assert Join([ext, other], '.') == ext + "." + other;
    assert Join([stem, ext, other], '.') == name;
  }

  /** The modes the editor gets for the three known extensions, and plain text otherwise. */
  lemma MimeOfName(stem: string, ext: string)
    requires '.' !in stem && '.' !in ext
    ensures Mime(Ext(stem + "." + ext)) ==
      if ext in {"c", "h"} then "text/x-c" else if ext == "rkt" then "text/x-scheme" else "text/plain"
    ensures '.' !in stem ==> Mime(Ext(stem)) == "text/plain"
  {
    ExtAfterFirstDot(stem, ext, "");
    assert stem + "." + ext + "" == stem + "." + ext;
  }

  /** The route parameters a successful rename navigates to. */
  datatype Route = Route(question: string, part: string, file: string)

  /** The route built from the new name `question/file`, `common/file` or
      `question/part/file`; `current` is the controller's question and `escape` stands for
      JavaScript's `escape`. A name without a slash makes the file segment `undefined`,
      which `escape` turns into the text "undefined". */
  function RenameRoute(newName: string, current: string, escape: string -> string): (route: Route)
    ensures route.question == current || ('/' !in route.question && route.question != "common")
    ensures '/' !in route.part
    ensures exists f :: route.file == escape(f) && '/' !in f
  {
    var path := Split(newName, '/');
    Route(
      if path[0] == "common" then current else path[0],
      if |path| > 2 then path[1] else if path[0] == "common" then "common" else "question",
      escape(if |path| > 2 then path[2] else if |path| > 1 then path[1] else "undefined"))
  }

  /** Renaming to `q/f` stays in question `q` (or in the current question for
      `common/f`) and routes to the matching part. */
  lemma RenameTwoSegments(q: string, f: string, current: string, escape: string -> string)
    requires '/' !in q && '/' !in f
    ensures RenameRoute(q + "/" + f, current, escape) ==
      if q == "common" then Route(current, "common", escape(f))
      else Route(q, "question", escape(f))
  {
    SplitJoin([q, f], '/');
    assert Join([q, f], '/') == q + "/" + f;
  }

  /** Renaming to `q/p/f` routes to part `p` and file `f`; any further segments are
      dropped, since only the first three are read. */
  lemma RenameThreeSegments(q: string, p: string, f: string, tail: string, current: string,
                            escape: string -> string)
    requires '/' !in q && '/' !in p && '/' !in f
    requires tail == [] || tail[0] == '/'
    ensures RenameRoute(q + "/" + p + "/" + f + tail, current, escape) ==
      Route(if q == "common" then current else q, p, escape(f))
  {
    var rest := Split(f + tail, '/');
    if tail == [] {
      assert f + tail == f;
      SplitWithoutSep(f, '/');
    } else {
      SplitAfterPiece(f, tail[1..], '/');
      assert f + tail == f + ['/'] + tail[1..];
    }
    assert |rest| >= 1 && rest[0] == f;
    SplitAfterPiece(p, f + tail, '/');
    assert p + "/" + (f + tail) == p + ['/'] + (f + tail);
    SplitAfterPiece(q, p + "/" + (f + tail), '/');
    assert q + "/" + p + "/" + f + tail == q + ['/'] + (p + "/" + (f + tail));
    assert Split(q + "/" + p + "/" + f + tail, '/') == [q] + ([p] + rest);
  }

  /** A name without a slash keeps it as the question and routes to the file "undefined". */
  lemma RenameOneSegment(name: string, current: string, escape: string -> string)
    requires '/' !in name
    ensures RenameRoute(name, current, escape) ==
      Route(if name == "common" then current else name,
            if name == "common" then "common" else "question",
            escape("undefined"))
  {
    SplitWithoutSep(name, '/');
  }

  /** Whether the project has a runner file, and whether it is this file. */
  datatype RunnerFlags = RunnerFlags(runnerFile: bool, isFileToRun: bool)

  /** The flags from the project's answer to `getFileToRun`: `result` is the runner file's
      name, or the empty string when there is none. */
  function RefreshRunner(result: string, file: string): (flags: RunnerFlags)
    ensures flags.runnerFile <==> result != ""
    ensures flags.isFileToRun <==> result == file
  {
    RunnerFlags(result != "", result == file)
  }

  /** Marking this file as the runner: both flags are set once the project acknowledges,
      and nothing changes when it fails. */
  function SetFileToRunDone(flags: RunnerFlags, ok: bool): (flags': RunnerFlags)
    ensures ok ==> flags'.runnerFile && flags'.isFileToRun
    ensures !ok ==> flags' == flags
  {
    if ok then RunnerFlags(true, true) else flags
  }

  /** After marking a (named) file as the runner, refreshing from the project's answer
      gives the same flags. */
  lemma SetThenRefreshAgree(flags: RunnerFlags, file: string)
    requires file != ""
    ensures RefreshRunner(file, file) == SetFileToRunDone(flags, true)
  {
  }

  /** A refresh reports what an acknowledged `setFileToRun` sets exactly when the project
      names this (named) file as the runner; a named runner file implies a runner exists. */
  lemma RefreshAgreesWithSetExactly(result: string, file: string)
    ensures RefreshRunner(result, file) == SetFileToRunDone(RunnerFlags(false, false), true)
        <==> result == file && file != ""
    ensures RefreshRunner(result, file).isFileToRun && file != "" ==> RefreshRunner(result, file).runnerFile
  {
  }
}

=== FILE: Process.dfy ===
/** The process side of the controller: stopping the running program, starting a run or
    a test batch, recording compile messages, and delivering console input and EOF.

    The console service keeps the process list (`PIDs`, absent when null), the `running`
    flag and the compile messages; the controller keeps the typed input. Requests to the
    project that the controller waits on are kept in `pending` until they settle. */
module Process {
  import opened Wrappers
  import opened Lint
  import opened Protocol

  datatype Console = Console(pids: Option<seq<Pid>>, running: bool, errors: seq<Diagnostic>)

  /** What happens when a pending request settles. */
  datatype Pending =
    | AfterKill(next: Option<bool>)   // a kill batch; `Some(isTest)` when a run or test follows
    | AfterRun(isTest: bool)          // a run (or test) request
    | AfterEofInput                   // the typed input `sendEOF` sends before the EOF
    | AfterEof                        // the EOF request

  datatype Proc = Proc(
    console: Console,
    userInput: string,
    pending: map<nat, Pending>,
    nextReq: nat,
    lint: bool)   // the open file is a C source or header, so compile messages are re-linted

  /** The project's answer to a run or test request. */
  datatype RunResult =
    | Started(pid: Pid, pids: seq<Pid>, messages: seq<Diagnostic>)
    | CompileFailed(messages: seq<Diagnostic>)
    | RunError

  datatype Outcome = Outcome(state: Proc, effects: seq<Effect>)

  datatype Event =
    | KillRequested
    | RunRequested(isTest: bool)
    | InputTyped(text: string)
    | KeyPressed(keyCode: int)
    | EofRequested
    | KillsSettled(request: nat, ok: bool)
    | RunSettled(request: nat, result: RunResult)
    | InputSettled(request: nat, ok: bool)
    | EofSettled(request: nat, ok: bool)
    | ErrorsCleared                     // an edit empties the console's messages

  const EnterKey: int := 13

  /** The console is running only with a process list, and every pending request has an
      id below `nextReq`. */
  ghost predicate Consistent(p: Proc)
  {
    && (p.console.running ==> p.console.pids.Some?)
    && (forall id :: id in p.pending ==> id < p.nextReq)
  }

  function Init(lint: bool): (p: Proc)
    ensures Consistent(p) && !p.console.running && p.console.pids.None? && p.userInput == ""
  {
    Proc(Console(None, false, []), "", map[], 0, lint)
  }

  /** `handleCompileErr`: with no messages nothing happens (the previous messages stay);
      otherwise a header is written, the messages replace the console's, C files are
      re-linted, and each message is written in order. */
  function HandleCompileErr(c: Console, msgs: seq<Diagnostic>, warnOnly: bool, lint: bool): (r: (Console, seq<Effect>))
    ensures |msgs| == 0 ==> r == (c, [])
    ensures |msgs| > 0 ==>
      && r.0 == c.(errors := msgs)
      && |r.1| >= |msgs| + 1 && r.1[0] == WriteCompileHeader(!warnOnly)
      && (Relint in r.1 <==> lint)
      && (forall i :: 0 <= i < |msgs| ==> r.1[|r.1| - |msgs| + i] == WriteDiagnostic(msgs[i]))
    ensures forall e :: e in r.1 ==> !e.Kill? && !e.RunQuestion? && !e.SetRunning?
  {
    if |msgs| == 0 then (c, [])
    else
      var writes := seq(|msgs|, i requires 0 <= i < |msgs| => WriteDiagnostic(msgs[i]));
      (c.(errors := msgs), [WriteCompileHeader(!warnOnly)] + (if lint then [Relint] else []) + writes)
  }

  /** What follows a settled kill batch: for a run or test, the console is cleared and the
      request dispatched. */
  function AfterKilled(p: Proc, next: Option<bool>): (o: Outcome)
    ensures next.None? ==> o == Outcome(p, [])
    ensures next.Some? ==>
      && o.effects == [ClearConsole, RunQuestion(next.value)]
      && o.state == p.(pending := p.pending[p.nextReq := AfterRun(next.value)], nextReq := p.nextReq + 1)
  {
    match next
    case None => Outcome(p, [])
    case Some(isTest) =>
      var id := p.nextReq;
      Outcome(p.(pending := p.pending[id := AfterRun(isTest)], nextReq := id + 1), [ClearConsole, RunQuestion(isTest)])
  }

  /** `killProgram`: with no process list nothing is killed and what follows happens at
      once. Otherwise one kill per process is issued, and the list and the running flag
      are cleared straight away, before any kill answers. */
  function KillProgram(p: Proc, next: Option<bool>): (o: Outcome)
    ensures o.state.console.pids.None? && o.state.console.errors == p.console.errors
    ensures p.console.pids.None? ==>
      && o.state.console == p.console
      && (forall e :: e in o.effects ==> !e.Kill?)
      && (next.Some? ==> RunQuestion(next.value) in o.effects)
    ensures p.console.pids.Some? ==>
      && !o.state.console.running
      && |o.effects| == |p.console.pids.value|
      && (forall i :: 0 <= i < |o.effects| ==> o.effects[i] == Kill(p.console.pids.value[i]))
      && o.state.pending == p.pending[p.nextReq := AfterKill(next)]
      && o.state.nextReq == p.nextReq + 1
    ensures o.state.userInput == p.userInput
  {
    match p.console.pids
    case None => AfterKilled(p, next)
    case Some(ps) =>
      var id := p.nextReq;
      Outcome(p.(console := p.console.(running := false, pids := None),
                 pending := p.pending[id := AfterKill(next)], nextReq := id + 1),
              seq(|ps|, i requires 0 <= i < |ps| => Kill(ps[i])))
  }

  /** A kill batch settles, on its first failure or when every kill succeeded. A failure
      is reported, and whatever follows is dispatched either way. */
  function OnKillsSettled(p: Proc, id: nat, ok: bool): (o: Outcome)
    ensures id in p.pending && p.pending[id].AfterKill? ==>
      && (ok ==> o.effects == AfterKilled(p.(pending := p.pending - {id}), p.pending[id].next).effects)
      && (!ok ==> o.effects == [Report(CouldNotStop)] + AfterKilled(p.(pending := p.pending - {id}), p.pending[id].next).effects)
      && o.state.console == p.console
    ensures !(id in p.pending && p.pending[id].AfterKill?) ==> o == Outcome(p, [])
    ensures forall e :: e in o.effects ==> !e.Kill?
  {
    if id in p.pending && p.pending[id].AfterKill? then
      var r := AfterKilled(p.(pending := p.pending - {id}), p.pending[id].next);
      Outcome(r.state, (if ok then [] else [Report(CouldNotStop)]) + r.effects)
    else Outcome(p, [])
  }

  /** A run or test request settles. On success the console runs the new processes (the
      run's one process, or the test batch's list) and any warnings are recorded; a compile
      failure records its messages and starts nothing; another error is reported. */
  function OnRunSettled(p: Proc, id: nat, result: RunResult): (o: Outcome)
    ensures id in p.pending && p.pending[id].AfterRun? ==>
      var isTest := p.pending[id].isTest;
      && o.state.pending == p.pending - {id}
      && match result
        case Started(pid, pids, msgs) =>
          && o.state.console.pids == Some(if isTest then pids else [pid])
          && o.state.console.running
          && o.state.console.errors == (if |msgs| > 0 then msgs else p.console.errors)
          && SetRunning(if isTest then pids else [pid], isTest) in o.effects
          && (BroadcastRunning in o.effects <==> !isTest)
        case CompileFailed(msgs) =>
          && o.state.console.pids == p.console.pids && o.state.console.running == p.console.running
          && o.state.console.errors == (if |msgs| > 0 then msgs else p.console.errors)
          && (|msgs| > 0 ==> WriteCompileHeader(true) in o.effects)
        case RunError =>
          o.state.console == p.console && o.effects == [Report(RunFailed)]
    ensures !(id in p.pending && p.pending[id].AfterRun?) ==> o == Outcome(p, [])
    ensures forall e :: e in o.effects ==> !e.Kill? && !e.RunQuestion?
  {
    if id in p.pending && p.pending[id].AfterRun? then
      var isTest := p.pending[id].isTest;
      var p1 := p.(pending := p.pending - {id});
      match result
      case Started(pid, pids, msgs) =>
        var running := if isTest then pids else [pid];
        var h := HandleCompileErr(p1.console.(pids := Some(running), running := true), msgs, true, p.lint);
        Outcome(p1.(console := h.0),
                (if isTest then [] else [BroadcastRunning]) + [SetRunning(running, isTest)] + h.1 + [WriteRunning(isTest)])
      case CompileFailed(msgs) =>
        var h := HandleCompileErr(p1.console, msgs, false, p.lint);
        Outcome(p1.(console := h.0), h.1)
      case RunError =>
        Outcome(p1, [Report(RunFailed)])
    else Outcome(p, [])
  }

  /** The console input box's key handler: Enter, while running, sends the typed line with
      a newline to the FIRST process, echoes it, and clears the box. */
  function OnKey(p: Proc, keyCode: int): (o: Outcome)
    ensures keyCode == EnterKey && p.console.running && p.console.pids.Some? ==>
      && o.effects == [SendInput(Head(p.console.pids.value), p.userInput + "\n"), FlushForInput,
                       WriteInput(p.userInput + "\n")]
      && o.state == p.(userInput := "")
    ensures !(keyCode == EnterKey && p.console.running && p.console.pids.Some?) ==> o == Outcome(p, [])
  {
    if keyCode == EnterKey && p.console.running then
      match p.console.pids
      case Some(ps) =>
        var line := p.userInput + "\n";
        Outcome(p.(userInput := ""), [SendInput(Head(ps), line), FlushForInput, WriteInput(line)])
      case None => Outcome(p, [])   // indexing a null list throws before anything is sent
    else Outcome(p, [])
  }

  /** Clear the typed input and send EOF to the first process, waiting for its answer. */
  function SendEofNow(p: Proc): (o: Outcome)
    ensures o.state.userInput == "" && o.state.console == p.console
    ensures p.console.pids.Some? ==>
      && o.effects == [SendEof(Head(p.console.pids.value))]
      && o.state.pending == p.pending[p.nextReq := AfterEof] && o.state.nextReq == p.nextReq + 1
    ensures p.console.pids.None? ==> o.effects == [] && o.state.pending == p.pending
  {
    match p.console.pids
    case Some(ps) =>
      var id := p.nextReq;
      Outcome(p.(userInput := "", pending := p.pending[id := AfterEof], nextReq := id + 1), [SendEof(Head(ps))])
    case None => Outcome(p.(userInput := ""), [])   // indexing a null list throws
  }

  /** `sendEOF`: only while running. Typed input is sent first, without a newline, and the
      EOF waits for it; with no typed input the EOF is sent at once. `running` does not
      change here. */
  function OnEof(p: Proc): (o: Outcome)
    ensures !p.console.running || p.console.pids.None? ==> o == Outcome(p, [])
    ensures p.console.running && p.console.pids.Some? && p.userInput != "" ==>
      && o.effects == [SendInput(Head(p.console.pids.value), p.userInput)]
      && o.state == p.(pending := p.pending[p.nextReq := AfterEofInput], nextReq := p.nextReq + 1)
    ensures p.console.running && p.console.pids.Some? && p.userInput == "" ==>
      && o.effects == [SendEof(Head(p.console.pids.value))]
      && o.state.console.running
    ensures o.state.console == p.console
  {
    if p.console.running then
      match p.console.pids
      case Some(ps) =>
        if p.userInput != "" then
          var id := p.nextReq;
          Outcome(p.(pending := p.pending[id := AfterEofInput], nextReq := id + 1), [SendInput(Head(ps), p.userInput)])
        else SendEofNow(p)
      case None => Outcome(p, [])   // indexing a null list throws
    else Outcome(p, [])
  }

  /** The input sent ahead of an EOF settles: on success the typed input is cleared and
      the EOF is sent; on failure nothing follows. */
  function OnInputSettled(p: Proc, id: nat, ok: bool): (o: Outcome)
    ensures id in p.pending && p.pending[id] == AfterEofInput && ok ==>
      o == SendEofNow(p.(pending := p.pending - {id}))
    ensures id in p.pending && p.pending[id] == AfterEofInput && !ok ==>
      o == Outcome(p.(pending := p.pending - {id}), [])
    ensures !(id in p.pending && p.pending[id] == AfterEofInput) ==> o == Outcome(p, [])
  {
    if id in p.pending && p.pending[id] == AfterEofInput then
      var p1 := p.(pending := p.pending - {id});
      if ok then SendEofNow(p1) else Outcome(p1, [])
    else Outcome(p, [])
  }

  /** The EOF settles: only a successful answer stops the console from taking input. */
  function OnEofSettled(p: Proc, id: nat, ok: bool): (o: Outcome)
    ensures id in p.pending && p.pending[id] == AfterEof ==>
      && o.state.console.running == (p.console.running && !ok)
      && o.state.console.pids == p.console.pids
      && o.state.pending == p.pending - {id}
    ensures !(id in p.pending && p.pending[id] == AfterEof) ==> o == Outcome(p, [])
    ensures o.effects == []
  {
    if id in p.pending && p.pending[id] == AfterEof then
      var p1 := p.(pending := p.pending - {id});
      Outcome(if ok then p1.(console := p1.console.(running := false)) else p1, [])
    else Outcome(p, [])
  }

  /** One event. Processes are killed only on a kill or run request, a run is dispatched
      only by such a request or a settled kill batch, and only a started run sets the
      console running. A request leaves `pending` only when its own answer arrives, and a
      request added here takes a fresh id. */
  function Step(p: Proc, e: Event): (o: Outcome)
    ensures o.state.lint == p.lint && o.state.nextReq >= p.nextReq
    ensures forall ef :: ef in o.effects && ef.Kill? ==> e.KillRequested? || e.RunRequested?
    ensures forall ef :: ef in o.effects && ef.RunQuestion? ==> e.RunRequested? || e.KillsSettled?
    ensures o.state.console.running && !p.console.running ==> e.RunSettled?
    ensures forall id :: id in p.pending && id !in o.state.pending ==>
      (e.KillsSettled? || e.RunSettled? || e.InputSettled? || e.EofSettled?) && e.request == id
    ensures forall id :: id in o.state.pending && id !in p.pending ==> p.nextReq <= id < o.state.nextReq
  {
    match e
    case KillRequested => KillProgram(p, None)
    case RunRequested(isTest) => KillProgram(p, Some(isTest))
    case InputTyped(text) => Outcome(p.(userInput := text), [])
    case KeyPressed(keyCode) => OnKey(p, keyCode)
    case EofRequested => OnEof(p)
    case KillsSettled(id, ok) => OnKillsSettled(p, id, ok)
    case RunSettled(id, result) => OnRunSettled(p, id, result)
    case InputSettled(id, ok) => OnInputSettled(p, id, ok)
    case EofSettled(id, ok) => OnEofSettled(p, id, ok)
    case ErrorsCleared => Outcome(p.(console := p.console.(errors := [])), [])
  }

  lemma KillKeepsConsistent(p: Proc, next: Option<bool>)
    requires Consistent(p)
    ensures Consistent(KillProgram(p, next).state)
  {
  }

  lemma SettleKeepsConsistent(p: Proc, e: Event)
    requires Consistent(p)
    requires e.KillsSettled? || e.RunSettled?
    ensures Consistent(Step(p, e).state)
  {
    match e
    case KillsSettled(id, ok) =>
      if id in p.pending && p.pending[id].AfterKill? {
        var p1 := p.(pending := p.pending - {id});
        assert Consistent(p1);
      }
    case RunSettled(id, result) =>
  }

  lemma InputKeepsConsistent(p: Proc, e: Event)
    requires Consistent(p)
    requires e.KeyPressed? || e.EofRequested? || e.InputSettled? || e.EofSettled?
    ensures Consistent(Step(p, e).state)
  {
    match e
    case InputSettled(id, ok) =>
      if id in p.pending && p.pending[id] == AfterEofInput {
        var p1 := p.(pending := p.pending - {id});
        assert Consistent(p1);
      }
    case _ =>
  }

  /** Every transition keeps the console consistent. */
  lemma StepKeepsConsistent(p: Proc, e: Event)
    requires Consistent(p)
    ensures Consistent(Step(p, e).state)
  {
    match e
    case KillRequested => KillKeepsConsistent(p, None);
    case RunRequested(isTest) => KillKeepsConsistent(p, Some(isTest));
    case KillsSettled(_, _) => SettleKeepsConsistent(p, e);
    case RunSettled(_, _) => SettleKeepsConsistent(p, e);
    case KeyPressed(_) => InputKeepsConsistent(p, e);
    case EofRequested => InputKeepsConsistent(p, e);
    case InputSettled(_, _) => InputKeepsConsistent(p, e);
    case EofSettled(_, _) => InputKeepsConsistent(p, e);
    case _ =>
  }

  /** The first half of a run (or test) once the save has gone through: stop what runs and
      let the kill batch settle if one was issued. Every running process is killed first,
      and the run is dispatched afterwards even when a kill failed; a failure is reported
      between the two. */
  function StopThenDispatch(p: Proc, isTest: bool, killOk: bool): (o: Outcome)
    ensures p.console.pids.None? ==> o.effects == [ClearConsole, RunQuestion(isTest)]
    ensures p.console.pids.Some? ==>
      var ps := p.console.pids.value;
      var after := (if killOk then [] else [Report(CouldNotStop)]) + [ClearConsole, RunQuestion(isTest)];
      && o.effects == seq(|ps|, i requires 0 <= i < |ps| => Kill(ps[i])) + after
  {
    var k := KillProgram(p, Some(isTest));
    if p.console.pids.Some? then
      var s := OnKillsSettled(k.state, p.nextReq, killOk);
      Outcome(s.state, k.effects + s.effects)
    else k
  }

  /** The whole of a run (or test): the first half, then the run request settles. */
  function RunFlow(p: Proc, isTest: bool, killOk: bool, result: RunResult): (o: Outcome)
    ensures StopThenDispatch(p, isTest, killOk).effects <= o.effects
  {
    var s := StopThenDispatch(p, isTest, killOk);
    var runId := if p.console.pids.Some? then p.nextReq + 1 else p.nextReq;
    var r := OnRunSettled(s.state, runId, result);
    Outcome(r.state, s.effects + r.effects)
  }

  /** The flow's requests open with one kill per running process, then the report of a
      failed kill, then the run request. */
  lemma RunFlowKillsThenRuns(p: Proc, isTest: bool, killOk: bool, result: RunResult)
    ensures var o := RunFlow(p, isTest, killOk, result);
      && (p.console.pids.None? ==> |o.effects| >= 2 && o.effects[..2] == [ClearConsole, RunQuestion(isTest)])
      && (p.console.pids.Some? ==>
            var ps := p.console.pids.value;
            && (forall i :: 0 <= i < |ps| ==> |o.effects| > i && o.effects[i] == Kill(ps[i]))
            && (killOk ==> |o.effects| >= |ps| + 2 && o.effects[|ps|..|ps| + 2] == [ClearConsole, RunQuestion(isTest)])
            && (!killOk ==>
                  |o.effects| >= |ps| + 3 && o.effects[|ps|..|ps| + 3] == [Report(CouldNotStop), ClearConsole, RunQuestion(isTest)]))
  {
    var first := StopThenDispatch(p, isTest, killOk).effects;
    var all := RunFlow(p, isTest, killOk, result).effects;
    DispatchFirst(p, isTest, killOk, all[|first|..]);
    assert first + all[|first|..] == all;
  }

  /** Whatever follows the first half, the requests open with the first half's. */
  lemma DispatchFirst(p: Proc, isTest: bool, killOk: bool, tail: seq<Effect>)
    ensures var effects := StopThenDispatch(p, isTest, killOk).effects + tail;
      && (p.console.pids.None? ==> |effects| >= 2 && effects[..2] == [ClearConsole, RunQuestion(isTest)])
      && (p.console.pids.Some? ==>
            var ps := p.console.pids.value;
            && (forall i :: 0 <= i < |ps| ==> |effects| > i && effects[i] == Kill(ps[i]))
            && (killOk ==> |effects| >= |ps| + 2 && effects[|ps|..|ps| + 2] == [ClearConsole, RunQuestion(isTest)])
            && (!killOk ==>
                  |effects| >= |ps| + 3 && effects[|ps|..|ps| + 3] == [Report(CouldNotStop), ClearConsole, RunQuestion(isTest)]))
  {
    var effects := StopThenDispatch(p, isTest, killOk).effects + tail;
    if p.console.pids.Some? {
      var ps := p.console.pids.value;
      var after := (if killOk then [] else [Report(CouldNotStop)]) + [ClearConsole, RunQuestion(isTest)];
      assert effects[|ps|..|ps| + |after|] == after;
    }
  }

  /** A run whose compilation fails leaves nothing running: the kill cleared the process
      list and nothing sets it again. The messages are kept for the lint helper. */
  lemma RunFlowCompileFailed(p: Proc, isTest: bool, killOk: bool, msgs: seq<Diagnostic>)
    requires Consistent(p)
    ensures var o := RunFlow(p, isTest, killOk, CompileFailed(msgs));
      && o.state.console.pids.None? && !o.state.console.running
      && o.state.console.errors == (if |msgs| > 0 then msgs else p.console.errors)
  {
  }

  /** A started run owns the console: its one process (or the test batch's list) is the
      process list and input is accepted. */
  lemma RunFlowStarted(p: Proc, isTest: bool, killOk: bool, pid: Pid, pids: seq<Pid>, msgs: seq<Diagnostic>)
    ensures var o := RunFlow(p, isTest, killOk, Started(pid, pids, msgs));
      && o.state.console.pids == Some(if isTest then pids else [pid])
      && o.state.console.running
  {
  }

  /** EOF with typed input: the input goes first, without a newline, then the EOF, to the
      first process; only a successful EOF answer stops the console. */
  lemma EofAfterTypedInput(p: Proc, eofOk: bool)
    requires p.console.running && p.console.pids.Some? && p.userInput != ""
    ensures var target := Head(p.console.pids.value);
      var o1 := OnEof(p);
      var o2 := OnInputSettled(o1.state, p.nextReq, true);
      var o3 := OnEofSettled(o2.state, p.nextReq + 1, eofOk);
      && o1.effects + o2.effects == [SendInput(target, p.userInput), SendEof(target)]
      && o2.state.userInput == "" && o2.state.console.running
      && o3.state.console.running == !eofOk
  {
  }

  /** When the typed input cannot be delivered, no EOF is sent and the input stays. */
  lemma EofInputLost(p: Proc)
    requires p.console.running && p.console.pids.Some? && p.userInput != ""
    ensures var o := OnInputSettled(OnEof(p).state, p.nextReq, false);
      && o.effects == [] && o.state.userInput == p.userInput && o.state.console.running
  {
  }

  /** Enter sends the line with its newline; EOF sends the same text without one. */
  lemma EnterAndEofDiffer(p: Proc)
    requires p.console.running && p.console.pids.Some? && p.userInput != ""
    ensures var target := Head(p.console.pids.value);
      && OnKey(p, EnterKey).effects[0] == SendInput(target, p.userInput + "\n")
      && OnEof(p).effects[0] == SendInput(target, p.userInput)
      && OnKey(p, EnterKey).effects[0] != OnEof(p).effects[0]
  {
    assert |p.userInput + "\n"| != |p.userInput|;
  }
}

=== FILE: Protocol.dfy ===
/** What the controller asks of its collaborators. Each transition of the model returns its
    new state together with the requests it made, in the order the controller makes them;
    the answers of the remote project come back later as events. */
module Protocol {
  import opened Wrappers
  import opened UiCache
  import opened Lint

  /** A remote process handle. */
  type Pid = int

  /** The three transport notifications the controller subscribes to. */
  datatype Connection = Connected | Failed | Disconnected

  /** The function handed to `runWhenSaved`: running the program, running the tests, or
      another action requested through the `run-when-saved` scope event. */
  datatype Callback = RunProgram | RunTests | Deferred(tag: nat)

  /** The editor options this model follows. */
  datatype Options = Options(readOnly: bool, lineNumbers: bool)

  datatype Effect =
    // debounce timer and project store
    | ArmTimer(timer: nat)
    | CancelTimer(timer: nat)
    | SaveFile(contents: string)
    | UpdateMostRecentlyUsed
    // editor widget
    | ApplyOptions(options: Options)
    | SetReadOnly(on: bool)
    | ClearHistory
    | SetHistory(history: History)
    | ScrollTo(left: int, top: int)
    | SetCursor(line: Option<int>, ch: Option<int>)
    | Relint
    // console
    | ClearDiagnostics
    | ClearConsole
    | SetRunning(pids: seq<Pid>, isTest: bool)
    | WriteCompileHeader(failed: bool)
    | WriteDiagnostic(d: Diagnostic)
    | WriteRunning(isTest: bool)
    | WriteInput(text: string)
    | FlushForInput
    | BroadcastRunning
    // remote processes; an absent pid is JavaScript's `undefined`
    | Kill(pid: Pid)
    | RunQuestion(isTest: bool)
    | SendInput(target: Option<Pid>, text: string)
    | SendEof(target: Option<Pid>)
    // control
    | Invoke(callback: Callback)
    | Report(message: string)
    | Navigate
    | UnregisterConnectivity
    | RemoveSettingsWatcher

  const CouldNotSave: string := "Could not save file!"
  const CouldNotStop: string := "Could not stop program!"
  const RunFailed: string := "An error occurred when running the project."

  /** The report for a document that could not be read, naming the file. */
  function ReadFailed(file: string): (message: string)
  {
    "Unexpected error while reading file " + file + "!"
  }

  /** The first element of a process list, `undefined` for an empty one. */
  function Head(pids: seq<Pid>): (target: Option<Pid>)
    ensures target.Some? <==> |pids| > 0
    ensures target.Some? ==> target.value == pids[0]
  {
    if |pids| > 0 then Some(pids[0]) else None
  }
}

=== FILE: Session.dfy ===
/** One open document: loading it, gating its editability, debouncing edits into saves,
    flushing before actions that need the saved file, and recording its UI state on close.

    Timers are explicit. `timeout` is the handle the controller keeps; `armed` holds the
    timers that are neither cancelled nor fired, and `saving` the debounced saves in flight,
    each named by the timer that issued it. `flushing` holds the saves issued by
    `runWhenSaved`, each with the callback waiting for it. */
module Session {
  import opened Wrappers
  import opened Text
  import opened UiCache
  import opened Protocol

  /** What the project store reports for a file that is not valid UTF-8 text. */
  const DecodeError: string := "bytes->string/utf-8: string is not a well-formed UTF-8 encoding"

  datatype Session = Session(
    folder: string,
    file: string,
    contents: string,
    ready: bool,
    loaded: bool,
    isBinaryFile: bool,
    timeout: Option<nat>,
    armed: set<nat>,
    saving: set<nat>,
    flushing: map<nat, Callback>,
    nextId: nat,
    line: Option<int>,
    col: Option<int>,
    options: Options,
    editor: Option<Options>)

  datatype Outcome = Outcome(state: Session, effects: seq<Effect>)

  datatype DestroyOutcome = DestroyOutcome(state: Session, caches: Caches, effects: seq<Effect>)

  datatype Event =
    | OpenSucceeded(conts: string)
    | OpenFailed(error: string)
    | EditorLoaded
    | SettingsChanged
    | ConnectionChanged(connection: Connection)
    | Changed(text: string)
    | CursorMoved(line0: int, ch0: int)
    | TimerFired(timer: nat)
    | SaveSettled(timer: nat, ok: bool)
    | RunWhenSaved(callback: Callback)
    | FlushSettled(request: nat, ok: bool)

  /** The editor options `refreshSettings` derives from the session's flags. */
  function OptionsFor(ready: bool, isBinaryFile: bool): (options: Options)
  {
    Options(!ready || isBinaryFile, !isBinaryFile)
  }

  /** A session just constructed: nothing loaded, no editor yet, and the options of the
      settings watcher's first call. */
  function Init(folder: string, file: string): (s: Session)
    ensures s.options.readOnly && s.options.lineNumbers
    ensures !s.ready && !s.loaded && !s.isBinaryFile && s.contents == ""
    ensures s.timeout.None? && s.armed == {} && s.saving == {} && s.flushing == map[]
  {
    Session(folder, file, "", false, false, false, None, {}, {}, map[], 0, None, None,
            OptionsFor(false, false), None)
  }

  // ---------------------------------------------------------------- settings and open

  /** `refreshSettings`: recompute the options from the flags and push them to the editor
      when it exists. */
  function RefreshSettings(s: Session): (o: Outcome)
    ensures o.state.options.readOnly <==> !s.ready || s.isBinaryFile
    ensures o.state.options.lineNumbers <==> !s.isBinaryFile
    ensures s.editor.Some? ==> o.state.editor == Some(o.state.options) && o.effects == [ApplyOptions(o.state.options)]
    ensures s.editor.None? ==> o.state.editor.None? && o.effects == []
    ensures o.state == s.(options := o.state.options, editor := o.state.editor)
  {
    var options := OptionsFor(s.ready, s.isBinaryFile);
    if s.editor.Some? then Outcome(s.(options := options, editor := Some(options)), [ApplyOptions(options)])
    else Outcome(s.(options := options), [])
  }

  /** The editor widget is created with the current options. */
  function OnEditorLoaded(s: Session): (o: Outcome)
    ensures o.state.editor == Some(s.options)
    ensures o.state == s.(editor := o.state.editor) && o.effects == []
  {
    Outcome(s.(editor := Some(s.options)), [])
  }

  /** The document's text arrived: the session is ready, an empty document needs no
      hydration, and the editor becomes writable unless the file is binary. */
  function OnOpenSucceeded(s: Session, conts: string): (o: Outcome)
    ensures o.state.ready && o.state.contents == conts
    ensures o.state.loaded <==> s.loaded || |conts| == 0
    ensures o.state.options == Options(s.isBinaryFile, !s.isBinaryFile)
    ensures |o.effects| >= 1 && o.effects[0] == UpdateMostRecentlyUsed
    ensures o.state.armed == s.armed && o.state.timeout == s.timeout && o.state.isBinaryFile == s.isBinaryFile
    ensures s.editor.Some? ==> o.state.editor == Some(o.state.options)
    ensures s.editor.None? ==> o.state.editor.None?
  {
    var s1 := s.(contents := conts, ready := true, loaded := s.loaded || |conts| == 0);
    var r := RefreshSettings(s1);
    Outcome(r.state, [UpdateMostRecentlyUsed] + r.effects)
  }

  /** Loading failed. A decode failure turns the session into a read-only binary view
      that stays not ready; any other failure is reported and the view navigates away. */
  function OnOpenFailed(s: Session, error: string): (o: Outcome)
    ensures Contains(error, DecodeError) ==>
      && o.state.isBinaryFile && o.state.ready == s.ready
      && o.state.options == Options(true, false)
      && Navigate !in o.effects
    ensures !Contains(error, DecodeError) ==>
      o.state == s && o.effects == [Report(ReadFailed(s.file)), Navigate]
  {
    if Contains(error, DecodeError) then RefreshSettings(s.(isBinaryFile := true))
    else Outcome(s, [Report(ReadFailed(s.file)), Navigate])
  }

  // ---------------------------------------------------------------- connectivity

  /** The transport handlers as written: `connected` makes the editor writable and the
      other two make it read-only, whatever the session's own flags say. */
  function OnConnectionAsWritten(s: Session, c: Connection): (o: Outcome)
    ensures s.editor.Some? ==> o.state.editor.Some? && (o.state.editor.value.readOnly <==> c != Connected)
    ensures s.editor.None? ==> o == Outcome(s, [])
    ensures o.state.options == s.options && o.state.ready == s.ready && o.state.armed == s.armed
  {
    if s.editor.Some? then
      Outcome(s.(editor := Some(s.editor.value.(readOnly := c != Connected))), [SetReadOnly(c != Connected)])
    else Outcome(s, [])
  }

  /** The transport handlers composed with the session's flags: read-only when the
      connection is down, or the document is not ready, or it is binary. */
  function OnConnection(s: Session, c: Connection): (o: Outcome)
    ensures s.editor.Some? ==> o.state.editor.Some? &&
                               (o.state.editor.value.readOnly <==> c != Connected || !s.ready || s.isBinaryFile)
    ensures s.editor.Some? && c != Connected ==> o.state.editor.value.readOnly
    ensures s.editor.None? ==> o == Outcome(s, [])
    ensures o.state.options == s.options && o.state.ready == s.ready && o.state.armed == s.armed
  {
    if s.editor.Some? then
      var ro := c != Connected || !s.ready || s.isBinaryFile;
      Outcome(s.(editor := Some(s.editor.value.(readOnly := ro))), [SetReadOnly(ro)])
    else Outcome(s, [])
  }

  // ---------------------------------------------------------------- hydration and edits

  /** What the first change notification restores: the history is cleared, then the
      cached history and the cached scroll offsets and cursor are put back when present. */
  function Hydrate(caches: Caches, folder: string, file: string): (r: seq<Effect>)
    ensures |r| >= 1 && r[0] == ClearHistory
    ensures match Lookup(caches.undo, folder, file)
      case Some(h) => SetHistory(h) in r
      case None => forall e :: e in r ==> !e.SetHistory?
    ensures match Lookup(caches.scroll, folder, file)
      case Some(se) => ScrollTo(se.left, se.top) in r && SetCursor(Restored(se).0, Restored(se).1) in r
      case None => forall e :: e in r ==> e == ClearHistory || e.SetHistory?
    ensures forall e :: e in r ==> e == ClearHistory || e.SetHistory? || e.ScrollTo? || e.SetCursor?
    ensures forall e :: e in r ==> !e.ArmTimer? && !e.SaveFile? && !e.ClearDiagnostics?
  {
    var history := match Lookup(caches.undo, folder, file)
      case Some(h) => [SetHistory(h)]
      case None => [];
    var scroll := match Lookup(caches.scroll, folder, file)
      case Some(se) => [ScrollTo(se.left, se.top), SetCursor(Restored(se).0, Restored(se).1)]
      case None => [];
    [ClearHistory] + history + scroll
  }

  /** The change handler, given whether it cancels the pending timer first. A hydrated,
      non-binary document arms one fresh timer and clears the compile messages; otherwise
      this is the hydration call and the cached UI state is restored. */
  function ChangeHandler(s: Session, caches: Caches, text: string, cancel: bool): (o: Outcome)
    requires cancel ==> s.timeout.Some?
    ensures o.state.folder == s.folder && o.state.file == s.file && o.state.editor == s.editor
    ensures o.state.nextId >= s.nextId && o.state.loaded
    ensures o.state.ready == s.ready && o.state.isBinaryFile == s.isBinaryFile
    ensures forall t :: t in o.state.armed && t !in s.armed ==> t == s.nextId < o.state.nextId
    ensures o.state.flushing == s.flushing
    ensures forall ef :: ef in o.effects ==> !ef.SaveFile?
  {
    var s1 := if cancel then s.(armed := s.armed - {s.timeout.value}, timeout := None) else s;
    var pre := if cancel then [CancelTimer(s.timeout.value)] else [];
    var s2 := s1.(contents := text, loaded := true);
    if s.loaded && !s.isBinaryFile then
      var t := s.nextId;
      Outcome(s2.(timeout := Some(t), armed := s2.armed + {t}, nextId := t + 1),
              pre + [ArmTimer(t), ClearDiagnostics])
    else
      Outcome(s2, pre + Hydrate(caches, s.folder, s.file))
  }

  /** The editor's change notification as written: the pending timer is cancelled only
      when the session is ready. */
  function OnChangeAsWritten(s: Session, caches: Caches, text: string): (o: Outcome)
    requires s.editor.Some?
    ensures o.state.loaded && o.state.contents == text
    ensures s.ready && s.timeout.Some? ==> |o.effects| >= 1 && o.effects[0] == CancelTimer(s.timeout.value)
    ensures !s.ready || s.timeout.None? ==> forall e :: e in o.effects ==> !e.CancelTimer?
    ensures s.loaded && !s.isBinaryFile ==>
      && o.state.timeout == Some(s.nextId)
      && o.state.armed == (if s.ready && s.timeout.Some? then s.armed - {s.timeout.value} else s.armed) + {s.nextId}
      && ArmTimer(s.nextId) in o.effects && ClearDiagnostics in o.effects
      && (forall e :: e in o.effects && e.ArmTimer? ==> e.timer == s.nextId)
    ensures s.loaded && !s.isBinaryFile ==>
      o.effects == (if s.ready && s.timeout.Some? then [CancelTimer(s.timeout.value)] else [])
                   + [ArmTimer(s.nextId), ClearDiagnostics]
    ensures !(s.loaded && !s.isBinaryFile) ==>
      && o.state.armed == (if s.ready && s.timeout.Some? then s.armed - {s.timeout.value} else s.armed)
      && o.effects == (if s.ready && s.timeout.Some? then [CancelTimer(s.timeout.value)] else [])
                      + Hydrate(caches, s.folder, s.file)
      && (forall e :: e in o.effects ==> !e.ArmTimer? && !e.ClearDiagnostics?)
      && ClearHistory in o.effects
  {
    ChangeHandler(s, caches, text, s.ready && s.timeout.Some?)
  }

  /** The change notification with the pending timer always cancelled first. */
  function OnChange(s: Session, caches: Caches, text: string): (o: Outcome)
    requires s.editor.Some?
    ensures o.state.loaded && o.state.contents == text
    ensures s.timeout.Some? ==> |o.effects| >= 1 && o.effects[0] == CancelTimer(s.timeout.value)
    ensures s.loaded && !s.isBinaryFile ==>
      && o.state.timeout == Some(s.nextId)
      && o.state.armed == (if s.timeout.Some? then s.armed - {s.timeout.value} else s.armed) + {s.nextId}
      && ArmTimer(s.nextId) in o.effects && ClearDiagnostics in o.effects
      && (forall e :: e in o.effects && e.ArmTimer? ==> e.timer == s.nextId)
    ensures s.loaded && !s.isBinaryFile ==>
      o.effects == (if s.timeout.Some? then [CancelTimer(s.timeout.value)] else [])
                   + [ArmTimer(s.nextId), ClearDiagnostics]
    ensures !(s.loaded && !s.isBinaryFile) ==>
      && o.state.timeout.None?
      && o.state.armed == (if s.timeout.Some? then s.armed - {s.timeout.value} else s.armed)
      && o.effects == (if s.timeout.Some? then [CancelTimer(s.timeout.value)] else [])
                      + Hydrate(caches, s.folder, s.file)
      && (forall e :: e in o.effects ==> !e.ArmTimer? && !e.ClearDiagnostics?)
      && ClearHistory in o.effects
  {
    ChangeHandler(s, caches, text, s.timeout.Some?)
  }

  /** The controller's one-based cursor, refreshed on cursor, focus and blur events. */
  function OnCursorMoved(s: Session, line0: int, ch0: int): (o: Outcome)
    ensures o.state.line == Some(OneBased(line0, ch0).0) && o.state.col == Some(OneBased(line0, ch0).1)
    ensures o.state == s.(line := o.state.line, col := o.state.col) && o.effects == []
  {
    var pos := OneBased(line0, ch0);
    Outcome(s.(line := Some(pos.0), col := Some(pos.1)), [])
  }

  // ---------------------------------------------------------------- saves

  /** An armed timer expires and saves the contents current at that moment. A timer that
      was cancelled or already fired does nothing. */
  function OnTimerFired(s: Session, t: nat): (o: Outcome)
    ensures t in s.armed ==>
      && o.effects == [SaveFile(s.contents)]
      && o.state.armed == s.armed - {t} && o.state.saving == s.saving + {t}
      && o.state.timeout == s.timeout
    ensures t !in s.armed ==> o == Outcome(s, [])
  {
    if t in s.armed then
      Outcome(s.(armed := s.armed - {t}, saving := s.saving + {t}), [SaveFile(s.contents)])
    else Outcome(s, [])
  }

  /** A debounced save settles as written: a failure is reported, and either way the
      controller's timer handle is cleared, even when it now holds a newer timer. */
  function OnSaveSettledAsWritten(s: Session, t: nat, ok: bool): (o: Outcome)
    ensures t in s.saving ==>
      && o.state.timeout.None? && o.state.saving == s.saving - {t} && o.state.armed == s.armed
      && o.effects == (if ok then [] else [Report(CouldNotSave)])
    ensures t !in s.saving ==> o == Outcome(s, [])
  {
    if t in s.saving then
      Outcome(s.(saving := s.saving - {t}, timeout := None), if ok then [] else [Report(CouldNotSave)])
    else Outcome(s, [])
  }

  /** A debounced save settles: a failure is reported, and either way the handle is
      cleared when it still names the timer that issued this save. */
  function OnSaveSettled(s: Session, t: nat, ok: bool): (o: Outcome)
    ensures t in s.saving ==>
      && o.state.saving == s.saving - {t} && o.state.armed == s.armed
      && (s.timeout == Some(t) ==> o.state.timeout.None?)
      && (s.timeout != Some(t) ==> o.state.timeout == s.timeout)
      && o.effects == (if ok then [] else [Report(CouldNotSave)])
    ensures t !in s.saving ==> o == Outcome(s, [])
  {
    if t in s.saving then
      var timeout := if s.timeout == Some(t) then None else s.timeout;
      Outcome(s.(saving := s.saving - {t}, timeout := timeout), if ok then [] else [Report(CouldNotSave)])
    else Outcome(s, [])
  }

  /** `runWhenSaved`: with no timer handle the callback runs at once and nothing is
      saved; otherwise the timer is cancelled, the current contents are saved, and the
      callback waits for that save. */
  function OnRunWhenSaved(s: Session, cb: Callback): (o: Outcome)
    ensures s.timeout.None? ==> o == Outcome(s, [Invoke(cb)])
    ensures s.timeout.Some? ==>
      && o.effects == [CancelTimer(s.timeout.value), SaveFile(s.contents)]
      && o.state.timeout.None? && o.state.armed == s.armed - {s.timeout.value}
      && s.nextId in o.state.flushing && o.state.flushing[s.nextId] == cb
      && o.state.nextId > s.nextId
  {
    if s.timeout.Some? then
      var id := s.nextId;
      Outcome(s.(armed := s.armed - {s.timeout.value}, timeout := None,
                 flushing := s.flushing[id := cb], nextId := id + 1),
              [CancelTimer(s.timeout.value), SaveFile(s.contents)])
    else Outcome(s, [Invoke(cb)])
  }

  /** The save `runWhenSaved` issued settles: the callback runs only if it succeeded. */
  function OnFlushSettled(s: Session, id: nat, ok: bool): (o: Outcome)
    ensures id in s.flushing && ok ==> o.effects == [Invoke(s.flushing[id])]
    ensures id in s.flushing && !ok ==> o.effects == [Report(CouldNotSave)]
    ensures id in s.flushing ==> o.state == s.(flushing := s.flushing - {id})
    ensures id !in s.flushing ==> o == Outcome(s, [])
  {
    if id in s.flushing then
      Outcome(s.(flushing := s.flushing - {id}),
              if ok then [Invoke(s.flushing[id])] else [Report(CouldNotSave)])
    else Outcome(s, [])
  }

  // ---------------------------------------------------------------- close

  /** Both `$destroy` handlers, in registration order. The first records scroll offsets,
      cursor and history under this folder and file and unregisters the transport
      handlers; it needs the editor, and without one it fails before doing anything. The
      second cancels a pending timer and saves the contents, but only once the session is
      ready, and removes the settings watcher. */
  function OnDestroy(s: Session, caches: Caches, top: int, left: int, history: History): (o: DestroyOutcome)
    ensures s.editor.Some? ==>
      && Lookup(o.caches.scroll, s.folder, s.file) == Some(ScrollEntry(top, left, s.line, s.col))
      && Lookup(o.caches.undo, s.folder, s.file) == Some(history)
      && UnregisterConnectivity in o.effects
    ensures forall fo, fi :: fo != s.folder || fi != s.file ==>
      && Lookup(o.caches.scroll, fo, fi) == Lookup(caches.scroll, fo, fi)
      && Lookup(o.caches.undo, fo, fi) == Lookup(caches.undo, fo, fi)
    ensures s.editor.None? ==> o.caches == caches && UnregisterConnectivity !in o.effects
    ensures SaveFile(s.contents) in o.effects <==> s.ready && s.timeout.Some?
    ensures o.state.armed == if s.ready && s.timeout.Some? then s.armed - {s.timeout.value} else s.armed
    ensures |o.effects| >= 1 && o.effects[|o.effects| - 1] == RemoveSettingsWatcher
  {
    var caches' :=
      if s.editor.Some? then
        Caches(Store(caches.scroll, s.folder, s.file, ScrollEntry(top, left, s.line, s.col)),
               Store(caches.undo, s.folder, s.file, history))
      else caches;
    var first := if s.editor.Some? then [UnregisterConnectivity] else [];
    var flush := s.ready && s.timeout.Some?;
    var s' := if flush then s.(armed := s.armed - {s.timeout.value}) else s;
    var second := (if flush then [CancelTimer(s.timeout.value), SaveFile(s.contents)] else []) + [RemoveSettingsWatcher];
    DestroyOutcome(s', caches', first + second)
  }

  // ---------------------------------------------------------------- event dispatch

  /** What no event undoes: the document keeps its folder and name, ids are never handed
      out twice, and a session that is ready, hydrated, binary or has its editor stays so. */
  ghost predicate Advances(s: Session, s': Session)
  {
    && s'.folder == s.folder && s'.file == s.file
    && s'.nextId >= s.nextId
    && (s.ready ==> s'.ready) && (s.loaded ==> s'.loaded) && (s.isBinaryFile ==> s'.isBinaryFile)
    && (s.editor.Some? ==> s'.editor.Some?)
  }

  /** One event, with the corrected change, save-settled and connectivity handlers. */
  function Step(s: Session, caches: Caches, e: Event): (o: Outcome)
  {
    match e
    case OpenSucceeded(conts) => OnOpenSucceeded(s, conts)
    case OpenFailed(error) => OnOpenFailed(s, error)
    case EditorLoaded => OnEditorLoaded(s)
    case SettingsChanged => RefreshSettings(s)
    case ConnectionChanged(c) => OnConnection(s, c)
    case Changed(text) => if s.editor.Some? then OnChange(s, caches, text) else Outcome(s, [])
    case CursorMoved(line0, ch0) => OnCursorMoved(s, line0, ch0)
    case TimerFired(t) => OnTimerFired(s, t)
    case SaveSettled(t, ok) => OnSaveSettled(s, t, ok)
    case RunWhenSaved(cb) => OnRunWhenSaved(s, cb)
    case FlushSettled(id, ok) => OnFlushSettled(s, id, ok)
  }

  /** One event, with the handlers as the controller writes them. */
  function StepAsWritten(s: Session, caches: Caches, e: Event): (o: Outcome)
  {
    match e
    case ConnectionChanged(c) => OnConnectionAsWritten(s, c)
    case Changed(text) => if s.editor.Some? then OnChangeAsWritten(s, caches, text) else Outcome(s, [])
    case SaveSettled(t, ok) => OnSaveSettledAsWritten(s, t, ok)
    case _ => Step(s, caches, e)
  }

  /** The state after a sequence of events. */
  function Replay(s: Session, caches: Caches, events: seq<Event>): (s': Session)
    ensures Advances(s, s')
    decreases |events|
  {
    if |events| == 0 then s
    else
      StepAdvances(s, caches, events[0]);
      Replay(Step(s, caches, events[0]).state, caches, events[1..])
  }

  /** The state after a sequence of events, with the handlers as written. */
  function ReplayAsWritten(s: Session, caches: Caches, events: seq<Event>): (s': Session)
    ensures Advances(s, s')
    decreases |events|
  {
    if |events| == 0 then s
    else
      StepAsWrittenAdvances(s, caches, events[0]);
      ReplayAsWritten(StepAsWritten(s, caches, events[0]).state, caches, events[1..])
  }

  /** Only an edit arms a timer, and only a fresh one; every save writes the contents the
      session holds when the event arrives; and nothing is undone. */
  lemma StepAdvances(s: Session, caches: Caches, e: Event)
    ensures var o := Step(s, caches, e);
      && Advances(s, o.state)
      && (forall t :: t in o.state.armed && t !in s.armed ==> t == s.nextId < o.state.nextId && e.Changed?)
      && (forall id :: id in o.state.flushing && id !in s.flushing ==>
            id == s.nextId < o.state.nextId && e.RunWhenSaved?)
      && (forall ef :: ef in o.effects && ef.SaveFile? ==> ef.contents == s.contents)
  {
    match e
    case OpenSucceeded(conts) => assert Step(s, caches, e) == OnOpenSucceeded(s, conts);
    case OpenFailed(error) => assert Step(s, caches, e) == OnOpenFailed(s, error);
    case EditorLoaded => assert Step(s, caches, e) == OnEditorLoaded(s);
    case SettingsChanged => assert Step(s, caches, e) == RefreshSettings(s);
    case ConnectionChanged(c) => assert Step(s, caches, e) == OnConnection(s, c);
    case Changed(text) =>
      if s.editor.Some? {
        assert Step(s, caches, e) == OnChange(s, caches, text);
      }
    case CursorMoved(line0, ch0) => assert Step(s, caches, e) == OnCursorMoved(s, line0, ch0);
    case TimerFired(t) => assert Step(s, caches, e) == OnTimerFired(s, t);
    case SaveSettled(t, ok) => assert Step(s, caches, e) == OnSaveSettled(s, t, ok);
    case RunWhenSaved(cb) => assert Step(s, caches, e) == OnRunWhenSaved(s, cb);
    case FlushSettled(id, ok) => assert Step(s, caches, e) == OnFlushSettled(s, id, ok);
  }

  /** A sequence of events hands out only fresh ids: every timer it leaves armed, and every
      flush it leaves waiting, that was not there before has an id drawn during the
      sequence. */
  lemma {:induction false} ReplayHandsOutFreshIds(s: Session, caches: Caches, events: seq<Event>)
    ensures var s' := Replay(s, caches, events);
      && (forall t :: t in s'.armed && t !in s.armed ==> s.nextId <= t < s'.nextId)
      && (forall id :: id in s'.flushing && id !in s.flushing ==> s.nextId <= id < s'.nextId)
    decreases |events|
  {
    if |events| > 0 {
      StepAdvances(s, caches, events[0]);
      var s1 := Step(s, caches, events[0]).state;
      ReplayHandsOutFreshIds(s1, caches, events[1..]);
      assert Replay(s, caches, events) == Replay(s1, caches, events[1..]);
    }
  }

  /** The handlers as written differ from the corrected ones only on connectivity, edits
      and settled saves, and keep the same guarantees. */
  lemma StepAsWrittenAdvances(s: Session, caches: Caches, e: Event)
    ensures var o := StepAsWritten(s, caches, e);
      && (!(e.ConnectionChanged? || e.Changed? || e.SaveSettled?) ==> o == Step(s, caches, e))
      && Advances(s, o.state)
      && (forall t :: t in o.state.armed && t !in s.armed ==> t == s.nextId && e.Changed?)
      && (forall ef :: ef in o.effects && ef.SaveFile? ==> ef.contents == s.contents)
  {
    if !(e.ConnectionChanged? || e.Changed? || e.SaveSettled?) {
      StepAdvances(s, caches, e);
    }
  }

  // ---------------------------------------------------------------- the timer invariant

  /** Every armed timer is the one the handle names, so at most one is armed; fired timers
      are no longer armed; all ids handed out are below `nextId`; the options follow the
      flags; and a live editor is read-only while the document is not ready or binary. */
  ghost predicate Valid(s: Session)
  {
    && (forall t :: t in s.armed ==> s.timeout == Some(t))
    && s.armed !! s.saving
    && (forall t :: t in s.armed ==> t < s.nextId)
    && (forall t :: t in s.saving ==> t < s.nextId)
    && (forall id :: id in s.flushing ==> id < s.nextId)
    && s.options == OptionsFor(s.ready, s.isBinaryFile)
    && (s.editor.Some? && (!s.ready || s.isBinaryFile) ==> s.editor.value.readOnly)
  }

  lemma InitValid(folder: string, file: string)
    ensures Valid(Init(folder, file))
  {
  }

  /** A valid session has at most one armed timer, and it is the one the handle names. */
  lemma AtMostOneArmed(s: Session)
    requires Valid(s)
    ensures |s.armed| <= 1
    ensures s.timeout.None? ==> s.armed == {}
  {
    if s.armed != {} {
      var t :| t in s.armed;
      assert s.armed == {t};
    }
  }

  lemma ChangeKeepsValid(s: Session, caches: Caches, text: string)
    requires Valid(s) && s.editor.Some?
    ensures Valid(OnChange(s, caches, text).state)
  {
    AtMostOneArmed(s);
    var o := OnChange(s, caches, text);
    if s.timeout.Some? {
      assert s.armed - {s.timeout.value} == {};
    }
  }

  lemma SaveSettledKeepsValid(s: Session, t: nat, ok: bool)
    requires Valid(s)
    ensures Valid(OnSaveSettled(s, t, ok).state)
  {
    if t in s.saving && s.timeout == Some(t) {
      assert s.armed == {};
    }
  }

  lemma RunWhenSavedKeepsValid(s: Session, cb: Callback)
    requires Valid(s)
    ensures Valid(OnRunWhenSaved(s, cb).state)
  {
    AtMostOneArmed(s);
  }

  lemma OpenKeepsValid(s: Session, e: Event)
    requires Valid(s) && (e.OpenSucceeded? || e.OpenFailed? || e.EditorLoaded? || e.SettingsChanged?)
    ensures Valid(Step(s, Empty, e).state)
  {
  }

  lemma TimerKeepsValid(s: Session, e: Event)
    requires Valid(s) && (e.TimerFired? || e.FlushSettled? || e.CursorMoved? || e.ConnectionChanged?)
    ensures Valid(Step(s, Empty, e).state)
  {
  }

  /** Every event keeps a session valid. */
  lemma StepKeepsValid(s: Session, caches: Caches, e: Event)
    requires Valid(s)
    ensures Valid(Step(s, caches, e).state)
  {
    match e
    case Changed(text) =>
      if s.editor.Some? {
        ChangeKeepsValid(s, caches, text);
      }
    case SaveSettled(t, ok) => SaveSettledKeepsValid(s, t, ok);
    case RunWhenSaved(cb) => RunWhenSavedKeepsValid(s, cb);
    case OpenSucceeded(_) => OpenKeepsValid(s, e);
    case OpenFailed(_) => OpenKeepsValid(s, e);
    case EditorLoaded => OpenKeepsValid(s, e);
    case SettingsChanged => OpenKeepsValid(s, e);
    case TimerFired(_) => TimerKeepsValid(s, e);
    case FlushSettled(_, _) => TimerKeepsValid(s, e);
    case CursorMoved(_, _) => TimerKeepsValid(s, e);
    case ConnectionChanged(_) => TimerKeepsValid(s, e);
  }

  /** Any sequence of events keeps a session valid. */
  lemma {:induction false} ReplayKeepsValid(s: Session, caches: Caches, events: seq<Event>)
    requires Valid(s)
    ensures Valid(Replay(s, caches, events))
    decreases |events|
  {
    if |events| > 0 {
      StepKeepsValid(s, caches, events[0]);
      ReplayKeepsValid(Step(s, caches, events[0]).state, caches, events[1..]);
    }
  }

  /** In a valid session `runWhenSaved` runs its callback at once only when no timer is
      armed, so the callback never sees an edit that is still waiting to be saved. */
  lemma RunWhenSavedWaitsForArmedTimer(s: Session, cb: Callback)
    requires Valid(s)
    ensures Invoke(cb) in OnRunWhenSaved(s, cb).effects ==> s.armed == {}
    ensures s.armed != {} ==> SaveFile(s.contents) in OnRunWhenSaved(s, cb).effects
  {
    AtMostOneArmed(s);
  }

  /** The change events for a burst of edits. */
  function Edits(texts: seq<string>): (events: seq<Event>)
    ensures |events| == |texts|
    ensures forall i :: 0 <= i < |texts| ==> events[i] == Changed(texts[i])
  {
    seq(|texts|, i requires 0 <= i < |texts| => Changed(texts[i]))
  }

  /** A burst of edits to a hydrated, non-binary document leaves exactly one armed timer,
      the handle names it, and the contents are those of the last edit, which that timer
      saves when it fires. */
  lemma {:induction false} EditBurstArmsOneTimer(s: Session, caches: Caches, texts: seq<string>)
    requires Valid(s) && s.editor.Some? && s.loaded && !s.isBinaryFile
    requires |texts| >= 1
    ensures var s' := Replay(s, caches, Edits(texts));
      && s'.timeout.Some? && s'.armed == {s'.timeout.value}
      && s'.contents == Last(texts)
      && Step(s', caches, TimerFired(s'.timeout.value)).effects == [SaveFile(Last(texts))]
    decreases |texts|
  {
    var s1 := Step(s, caches, Changed(texts[0])).state;
    StepKeepsValid(s, caches, Changed(texts[0]));
    assert Edits(texts)[1..] == Edits(texts[1..]);
    assert Replay(s, caches, Edits(texts)) == Replay(s1, caches, Edits(texts[1..]));
    if |texts| == 1 {
      assert Replay(s1, caches, Edits(texts[1..])) == s1;
      AtMostOneArmed(s);
    } else {
      EditBurstArmsOneTimer(s1, caches, texts[1..]);
    }
  }

  // ---------------------------------------------------------------- findings

  /** Open a non-empty file, hydrate, edit, let the timer fire, edit again while that save
      is in flight, and then let the save succeed. */
  const StaleSaveTrace: seq<Event> := [
    EditorLoaded, OpenSucceeded("x"), Changed("x"), Changed("xy"), TimerFired(0),
    Changed("xyz"), SaveSettled(0, true)]

  /** Where the as-written handlers leave the session after `StaleSaveTrace`. */
  const StaleSaveState: Session := Session(
    "src", "a.c", "xyz", true, true, false, None, {1}, {}, map[], 2, None, None,
    Options(false, true), Some(Options(false, true)))

  /** Where both versions of the handlers are after the first four events of
      `StaleSaveTrace`: hydrated, with timer 0 armed for "xy". */
  const StaleSaveMid: Session := Session(
    "src", "a.c", "xy", true, true, false, Some(0), {0}, {}, map[], 1, None, None,
    Options(false, true), Some(Options(false, true)))

  lemma StaleSaveReplay()
    ensures ReplayAsWritten(Init("src", "a.c"), Empty, StaleSaveTrace) == StaleSaveState
  {
    var c := Empty;
    var t := StaleSaveTrace;
    var s0 := Init("src", "a.c");
    var s1 := s0.(editor := Some(Options(true, true)));
    var s2 := s1.(contents := "x", ready := true, options := Options(false, true),
                  editor := Some(Options(false, true)));
    var s3 := s2.(loaded := true);
    var s4 := StaleSaveMid;
    var s5 := s4.(armed := {}, saving := {0});
    var s6 := s5.(contents := "xyz", timeout := Some(1), armed := {1}, nextId := 2);
    var s7 := StaleSaveState;
    assert StepAsWritten(s0, c, t[0]).state == s1;
    assert StepAsWritten(s1, c, t[1]).state == s2;
    assert StepAsWritten(s2, c, t[2]).state == s3;
    assert StepAsWritten(s3, c, t[3]).state == s4;
    assert StepAsWritten(s4, c, t[4]).state == s5;
    assert StepAsWritten(s5, c, t[5]).state == s6;
    assert StepAsWritten(s6, c, t[6]).state == s7;
    assert ReplayAsWritten(s0, c, t) == ReplayAsWritten(s1, c, t[1..]);
    assert ReplayAsWritten(s1, c, t[1..]) == ReplayAsWritten(s2, c, t[2..]);
    assert ReplayAsWritten(s2, c, t[2..]) == ReplayAsWritten(s3, c, t[3..]);
    assert ReplayAsWritten(s3, c, t[3..]) == ReplayAsWritten(s4, c, t[4..]);
    assert ReplayAsWritten(s4, c, t[4..]) == ReplayAsWritten(s5, c, t[5..]);
    assert ReplayAsWritten(s5, c, t[5..]) == ReplayAsWritten(s6, c, t[6..]);
    assert ReplayAsWritten(s6, c, t[6..]) == ReplayAsWritten(s7, c, t[7..]);
  }

  /** As written, the settled save clears the handle of the newer timer 1, which stays
      armed: `runWhenSaved` then runs its callback without saving "xyz", and the next edit
      arms a second timer beside it. */
  lemma StaleSaveAsWritten()
    ensures var s := ReplayAsWritten(Init("src", "a.c"), Empty, StaleSaveTrace);
      && s.ready && s.armed == {1} && s.timeout.None? && s.contents == "xyz"
      && !Valid(s)
      && OnRunWhenSaved(s, RunProgram).effects == [Invoke(RunProgram)]
      && StepAsWritten(s, Empty, Changed("xyzw")).state.armed == {1, 2}
  {
    StaleSaveReplay();
    var s := StaleSaveState;
    assert 1 in s.armed;
    assert OnChangeAsWritten(s, Empty, "xyzw").state.armed == {1} + {2};
  }

  /** The corrected handlers leave the session of `StaleSaveState`, except that the
      handle still names timer 1. */
  lemma StaleSaveCorrectedReplay()
    ensures Replay(Init("src", "a.c"), Empty, StaleSaveTrace) == StaleSaveState.(timeout := Some(1))
  {
    var c := Empty;
    var t := StaleSaveTrace;
    var s0 := Init("src", "a.c");
    var s1 := s0.(editor := Some(Options(true, true)));
    var s2 := s1.(contents := "x", ready := true, options := Options(false, true),
                  editor := Some(Options(false, true)));
    var s3 := s2.(loaded := true);
    var s4 := StaleSaveMid;
    var s5 := s4.(armed := {}, saving := {0});
    var s6 := s5.(contents := "xyz", timeout := Some(1), armed := {1}, nextId := 2);
    var s7 := StaleSaveState.(timeout := Some(1));
    assert Step(s0, c, t[0]).state == s1;
    assert Step(s1, c, t[1]).state == s2;
    assert Step(s2, c, t[2]).state == s3;
    assert Step(s3, c, t[3]).state == s4;
    assert Step(s4, c, t[4]).state == s5;
    assert Step(s5, c, t[5]).state == s6;
    assert Step(s6, c, t[6]).state == s7;
    assert Replay(s0, c, t) == Replay(s1, c, t[1..]);
    assert Replay(s1, c, t[1..]) == Replay(s2, c, t[2..]);
    assert Replay(s2, c, t[2..]) == Replay(s3, c, t[3..]);
    assert Replay(s3, c, t[3..]) == Replay(s4, c, t[4..]);
    assert Replay(s4, c, t[4..]) == Replay(s5, c, t[5..]);
    assert Replay(s5, c, t[5..]) == Replay(s6, c, t[6..]);
    assert Replay(s6, c, t[6..]) == Replay(s7, c, t[7..]);
  }

  /** With the handle cleared only for its own timer, the same events leave timer 1 as
      the handle, and `runWhenSaved` cancels it and saves "xyz" before its callback. */
  lemma StaleSaveCorrected()
    ensures var s := Replay(Init("src", "a.c"), Empty, StaleSaveTrace);
      && s.armed == {1} && s.timeout == Some(1) && Valid(s)
      && OnRunWhenSaved(s, RunProgram).effects == [CancelTimer(1), SaveFile("xyz")]
  {
    InitValid("src", "a.c");
    ReplayKeepsValid(Init("src", "a.c"), Empty, StaleSaveTrace);
    StaleSaveCorrectedReplay();
  }

  /** Edits that reach the editor before the document has loaded: the transport's
      `connected` notification makes the not-yet-ready editor writable, the first edit
      hydrates, and every later one arms a timer. */
  const EarlyEditTrace: seq<Event> :=
    [EditorLoaded, ConnectionChanged(Connected), Changed(""), Changed("a"), Changed("ab")]

  /** As written, the handler does not cancel while the session is not ready, so the
      second early edit leaves two armed timers. */
  lemma EarlyEditsAsWritten()
    ensures var s := ReplayAsWritten(Init("src", "a.c"), Empty, EarlyEditTrace);
      && !s.ready && s.editor.Some? && !s.editor.value.readOnly
      && s.armed == {0, 1} && !Valid(s)
  {
    var c := Empty;
    var t := EarlyEditTrace;
    var s0 := Init("src", "a.c");
    var s1 := StepAsWritten(s0, c, t[0]).state;
    var s2 := StepAsWritten(s1, c, t[1]).state;
    var s3 := StepAsWritten(s2, c, t[2]).state;
    var s4 := StepAsWritten(s3, c, t[3]).state;
    var s5 := StepAsWritten(s4, c, t[4]).state;
    assert s1.editor == Some(Options(true, true));
    assert s2.editor == Some(Options(false, true)) && !s2.loaded;
    assert s3.loaded && s3.armed == {};
    assert s4.armed == {0} && s4.timeout == Some(0);
    assert s5.armed == {0, 1};
    assert ReplayAsWritten(s0, c, t) == s5 by {
      assert ReplayAsWritten(s0, c, t) == ReplayAsWritten(s1, c, t[1..]);
      assert ReplayAsWritten(s1, c, t[1..]) == ReplayAsWritten(s2, c, t[2..]);
      assert ReplayAsWritten(s2, c, t[2..]) == ReplayAsWritten(s3, c, t[3..]);
      assert ReplayAsWritten(s3, c, t[3..]) == ReplayAsWritten(s4, c, t[4..]);
      assert ReplayAsWritten(s4, c, t[4..]) == ReplayAsWritten(s5, c, t[5..]);
    }
  }

  /** As written, reconnecting makes the editor of a binary file writable. */
  lemma BinaryWritableAsWritten()
    ensures var s := OnConnectionAsWritten(
                       OnOpenFailed(OnEditorLoaded(Init("src", "a.o")).state, DecodeError).state,
                       Connected).state;
      s.isBinaryFile && s.editor.Some? && !s.editor.value.readOnly && !Valid(s)
  {
    assert DecodeError <= DecodeError;
  }

  /** With the flags composed in, a connectivity change never makes a not-ready or binary
      document writable. */
  lemma ConnectionKeepsGate(s: Session, c: Connection)
    requires Valid(s)
    ensures var s' := OnConnection(s, c).state;
      s'.editor.Some? && (!s'.ready || s'.isBinaryFile) ==> s'.editor.value.readOnly
  {
  }

  // ---------------------------------------------------------------- open and close

  /** The three outcomes of opening, seen from a freshly constructed session. */
  lemma OpenOutcomes(folder: string, file: string, conts: string, error: string)
    ensures var s := OnOpenSucceeded(Init(folder, file), conts).state;
      s.ready && (s.loaded <==> conts == "") && s.options == Options(false, true)
    ensures Contains(error, DecodeError) ==>
      var s := OnOpenFailed(Init(folder, file), error).state;
      s.isBinaryFile && !s.ready && s.options == Options(true, false)
    ensures !Contains(error, DecodeError) ==>
      Navigate in OnOpenFailed(Init(folder, file), error).effects
  {
  }

  /** Closing a document and opening it again: the first change notification of the new
      session restores the history, the scroll offsets, and the cursor the editor last
      reported before the close. */
  lemma ReopenRestores(s: Session, caches: Caches, line0: int, ch0: int,
                       top: int, left: int, history: History, text: string)
    requires s.editor.Some?
    ensures var closed := OnCursorMoved(s, line0, ch0).state;
      var d := OnDestroy(closed, caches, top, left, history);
      var reopened := OnEditorLoaded(Init(s.folder, s.file)).state;
      OnChange(reopened, d.caches, text).effects ==
        [ClearHistory, SetHistory(history), ScrollTo(left, top), SetCursor(Some(line0), Some(ch0))]
  {
  }

  /** A document never closed before restores nothing on its first change notification. */
  lemma FirstOpenRestoresNothing(s: Session, caches: Caches, text: string)
    requires s.editor.Some? && !s.loaded
    requires Lookup(caches.scroll, s.folder, s.file).None? && Lookup(caches.undo, s.folder, s.file).None?
    ensures OnChange(s, caches, text).effects ==
      (if s.timeout.Some? then [CancelTimer(s.timeout.value)] else []) + [ClearHistory]
  {
  }
}

=== FILE: Text.dfy ===
/** String helpers with JavaScript's semantics: `split` on a one-character separator,
    the last element of the result, and `indexOf(t) != -1`. */
module Text {

  /** The pieces of `s` between occurrences of `sep`, left to right, as JavaScript's
      `s.split(sep)` cuts a string: there is always at least one piece, and the empty
      string gives `[""]`. */
  function Split(s: string, sep: char): (parts: seq<string>)
    ensures |parts| >= 1
    ensures forall i :: 0 <= i < |parts| ==> sep !in parts[i]
    decreases |s|
  {
    if |s| == 0 then [""]
    else
      var rest := Split(s[1..], sep);
      if s[0] == sep then [""] + rest
      else [[s[0]] + rest[0]] + rest[1..]
  }

  /** The inverse of `Split`: JavaScript's `parts.join(sep)`. */
  function Join(parts: seq<string>, sep: char): (s: string)
    requires |parts| >= 1
    decreases |parts|
  {
    if |parts| == 1 then parts[0] else parts[0] + [sep] + Join(parts[1..], sep)
  }

  /** `xs[xs.length - 1]`. */
  function Last<T>(xs: seq<T>): (x: T)
    requires |xs| >= 1
  {
    xs[|xs| - 1]
  }

  /** Joining the pieces gives back the string that was split. */
  lemma {:induction false} JoinSplit(s: string, sep: char)
    ensures Join(Split(s, sep), sep) == s
    decreases |s|
  {
    if |s| > 0 {
      var rest := Split(s[1..], sep);
      JoinSplit(s[1..], sep);
      assert s == [s[0]] + s[1..];
      if s[0] == sep {
        assert ([""] + rest)[1..] == rest;
      } else if |rest| > 1 {
        var parts := [[s[0]] + rest[0]] + rest[1..];
        assert parts[1..] == rest[1..];
        calc {
          Join(parts, sep);
          ([s[0]] + rest[0]) + [sep] + Join(rest[1..], sep);
          [s[0]] + (rest[0] + [sep] + Join(rest[1..], sep));
          [s[0]] + Join(rest, sep);
        }
      }
    }
  }

  /** A string without the separator is one piece. */
  lemma {:induction false} SplitWithoutSep(s: string, sep: char)
    requires sep !in s
    ensures Split(s, sep) == [s]
    decreases |s|
  {
    if |s| > 0 {
      SplitWithoutSep(s[1..], sep);
      assert s == [s[0]] + s[1..];
    }
  }

  /** Splitting `a + sep + b`, where `a` has no separator, yields `a` followed by the pieces of `b`. */
  lemma {:induction false} SplitAfterPiece(a: string, b: string, sep: char)
    requires sep !in a
    ensures Split(a + [sep] + b, sep) == [a] + Split(b, sep)
    decreases |a|
  {
    var s := a + [sep] + b;
    if |a| == 0 {
      assert s[1..] == b;
    } else {
      assert s[1..] == a[1..] + [sep] + b;
      SplitAfterPiece(a[1..], b, sep);
      assert [a[0]] + a[1..] == a;
    }
  }

  /** Splitting undoes joining pieces that contain no separator. */
  lemma {:induction false} SplitJoin(parts: seq<string>, sep: char)
    requires |parts| >= 1
    requires forall i :: 0 <= i < |parts| ==> sep !in parts[i]
    ensures Split(Join(parts, sep), sep) == parts
    decreases |parts|
  {
    if |parts| == 1 {
      SplitWithoutSep(parts[0], sep);
    } else {
      SplitJoin(parts[1..], sep);
      SplitAfterPiece(parts[0], Join(parts[1..], sep), sep);
      assert [parts[0]] + parts[1..] == parts;
    }
  }

  /** A string is a single piece exactly when it has no separator in it. */
  lemma SplitIsSinglePiece(s: string, sep: char)
    ensures |Split(s, sep)| == 1 <==> sep !in s
  {
    JoinSplit(s, sep);
    if sep !in s {
      SplitWithoutSep(s, sep);
    }
  }

  /** `r` ends `s`, and is either all of `s` or preceded by a separator. */
  ghost predicate EndsAtSep(s: string, r: string, sep: char) {
    && |r| <= |s|
    && s[|s| - |r|..] == r
    && (|r| == |s| || s[|s| - |r| - 1] == sep)
  }

  /** Putting a character in front keeps a proper separator-delimited suffix one. */
  lemma EndsAtSepCons(c: char, t: string, r: string, sep: char)
    requires EndsAtSep(t, r, sep) && |r| < |t|
    ensures EndsAtSep([c] + t, r, sep)
  {
    var s := [c] + t;
    assert s[1..] == t;
    assert t[|t| - |r|..] == s[|s| - |r|..];
    assert s[|s| - |r| - 1] == t[|t| - |r| - 1];
  }

  /** The last piece is the longest separator-free suffix of `s`. */
  lemma {:induction false} LastPieceIsSuffix(s: string, sep: char)
    ensures EndsAtSep(s, Last(Split(s, sep)), sep)
    decreases |s|
  {
    if |s| > 0 {
      var t := s[1..];
      assert s == [s[0]] + t;
      var rest := Split(t, sep);
      LastPieceIsSuffix(t, sep);
      var r := Last(rest);
      if s[0] != sep && |rest| == 1 {
        assert Last(Split(s, sep)) == s by {
          JoinSplit(t, sep);
        }
      } else {
        assert Last(Split(s, sep)) == r;
        if |r| == |t| {
          if s[0] != sep {
            assert r == t;
            SplitIsSinglePiece(t, sep);
            assert false;
          }
          assert s[|s| - |r|..] == t;
        } else {
          EndsAtSepCons(s[0], t, r, sep);
        }
      }
    }
  }

  /** The last `/`-separated segment of a path: `path.split("/")` followed by taking the final element. */
  function Basename(path: string): (name: string)
    ensures '/' !in name
    ensures EndsAtSep(path, name, '/')
  {
    LastPieceIsSuffix(path, '/');
    Last(Split(path, '/'))
  }

  /** A separator-free suffix that starts the string or follows a separator is the last
      piece: the last piece is determined by that property alone. */
  lemma LastPieceUnique(s: string, r: string, sep: char)
    requires sep !in r
    requires EndsAtSep(s, r, sep)
    ensures r == Last(Split(s, sep))
  {
    LastPieceIsSuffix(s, sep);
  }

  /** The last piece is exactly the separator-free suffix that starts the string or
      follows a separator. */
  lemma LastPieceIff(s: string, r: string, sep: char)
    ensures r == Last(Split(s, sep)) <==> sep !in r && EndsAtSep(s, r, sep)
  {
    LastPieceIsSuffix(s, sep);
    if sep !in r && EndsAtSep(s, r, sep) {
      LastPieceUnique(s, r, sep);
    }
  }

  /** The three properties of `Basename` single out one suffix of the path. */
  lemma BasenameUnique(path: string, name: string)
    requires '/' !in name
    requires EndsAtSep(path, name, '/')
    ensures name == Basename(path)
  {
  }

  /** JavaScript's `s.indexOf(t) != -1`: `t` occurs in `s` at some position. */
  function Contains(s: string, t: string): (found: bool)
    ensures found <==> exists i :: 0 <= i <= |s| && t <= s[i..]
    decreases |s|
  {
    if t <= s then
      assert s[0..] == s;
      true
    else if |s| == 0 then false
    else
      assert forall i :: 1 <= i <= |s| ==> s[i..] == s[1..][i - 1..];
      Contains(s[1..], t)
  }

  /** Whatever surrounds `t`, the string contains it. */
  lemma {:induction false} ContainsInfix(a: string, t: string, b: string)
    ensures Contains(a + t + b, t)
    decreases |a|
  {
    if |a| > 0 {
      assert (a + t + b)[1..] == a[1..] + t + b;
      ContainsInfix(a[1..], t, b);
    }
  }

  /** And a string that contains `t` is something wrapped around `t`. */
  lemma ContainedIsInfix(s: string, t: string)
    requires Contains(s, t)
    ensures exists a, b :: s == a + t + b && |a| <= |s|
  {
    var i :| 0 <= i <= |s| && t <= s[i..];
    assert s == s[..i] + t + s[i + |t|..];
  }
}

=== FILE: UiCache.dfy ===
/** The per-folder UI caches that outlive one open document: scroll/cursor positions and
    undo histories, each a map folder -> file -> entry, written when a document closes and
    read when it is next hydrated. */
module UiCache {
  import opened Wrappers

  /** A folder -> file -> entry map. */
  type Cache<V> = map<string, map<string, V>>

  /** The editor's undo history; its contents are opaque to the controller. */
  datatype History = History(blob: string)

  /** Scroll offsets and the ONE-based cursor position at close time. The cursor fields
      are absent when no cursor event has been seen yet (`undefined` in the controller). */
  datatype ScrollEntry = ScrollEntry(top: int, left: int, line: Option<int>, col: Option<int>)

  /** Both caches, shared by every document of the open project. */
  datatype Caches = Caches(scroll: Cache<ScrollEntry>, undo: Cache<History>)

  const Empty: Caches := Caches(map[], map[])

  /** `cache[folder][file]`, absent when either level is missing. */
  function Lookup<V>(cache: Cache<V>, folder: string, file: string): (v: Option<V>)
  {
    if folder in cache && file in cache[folder] then Some(cache[folder][file]) else None
  }

  /** `cache[folder][file] = v`, creating the folder's map when it is missing. */
  function Store<V>(cache: Cache<V>, folder: string, file: string, v: V): (cache': Cache<V>)
    ensures Lookup(cache', folder, file) == Some(v)
    ensures forall fo, fi :: fo != folder || fi != file ==> Lookup(cache', fo, fi) == Lookup(cache, fo, fi)
    ensures cache'.Keys == cache.Keys + {folder}
  {
    var inner := if folder in cache then cache[folder] else map[];
    cache[folder := inner[file := v]]
  }

  /** The one-based cursor the controller keeps from a zero-based editor cursor. */
  function OneBased(line0: int, ch0: int): (pos: (int, int))
    ensures pos == (line0 + 1, ch0 + 1)
  {
    (line0 + 1, ch0 + 1)
  }

  /** The zero-based cursor hydration passes back to the editor; absent parts stay absent. */
  function Restored(e: ScrollEntry): (cursor: (Option<int>, Option<int>))
    ensures cursor.0.Some? <==> e.line.Some?
    ensures cursor.1.Some? <==> e.col.Some?
    ensures e.line.Some? ==> cursor.0 == Some(e.line.value - 1)
    ensures e.col.Some? ==> cursor.1 == Some(e.col.value - 1)
  {
    (if e.line.Some? then Some(e.line.value - 1) else None,
     if e.col.Some? then Some(e.col.value - 1) else None)
  }

  /** Storing a cursor one-based and restoring it gives back the editor's cursor. */
  lemma CursorRoundTrip(top: int, left: int, line0: int, ch0: int)
    ensures var pos := OneBased(line0, ch0);
      Restored(ScrollEntry(top, left, Some(pos.0), Some(pos.1))) == (Some(line0), Some(ch0))
  {
  }
}

=== FILE: Wrappers.dfy ===
/** Optional values: the model's stand-in for JavaScript's `null` / `undefined`. */
module Wrappers {

  datatype Option<+T> = None | Some(value: T)
}
